=== FILE: README.md ===
# Self-assessment scoring engine — a Dafny model

This project models the scoring and validation engine of a Streamlit self-assessment tool for active transparency (`app.py`). An evaluator walks through a catalog of items. Each item belongs to a category ("materia"), and each category may carry a weight. For each item the evaluator records:

- a scenario (1 to 5);
- for scenario 1, up to three general indicators: availability, currency and completeness;
- when all three are answered, one answer per specific indicator.

The engine then does three things:

- It scores every saved record.
- It averages the item scores per category.
- It combines the category scores into one global score. This is a weighted mean when any scored category has a numeric weight, otherwise a plain mean, otherwise 0.

Before a record is stored, a completeness gate decides whether the answers may be saved. When an item is reopened, its radios are pre-selected from the saved record.

Scores are exact. A percentage is an integer number of tenths of a percent, so 43.8 % is `438`. Every rounding `round(x, 1)` of the source is rounding of the exact value to the nearest tenth, with ties going to the even neighbour. The rounding to whole percentages is done the same way. Weights are exact reals.

Modules:

- `wrappers.dfy`: `Option` and `Result`.
- `seqs.dfy`: `IndexOf`, the first position of a value in a list (`list.index`).
- `scoring.dfy`: the answer record, the score table and the item scorer `_puntaje_item`.
- `catalog.dfy`: the catalog rows, the label fix-up and the indexes built at start-up: `ITEM_TO_MAT`, `MAT_TO_ITEMS`, `ORDER_MAT`, `_num_first` and `MAT_PESO`.
- `aggregate.dfy`: `_calcular`, meaning the item, category and global scores.
- `form.dfy`: `_safe_idx`, the radios' pre-selection and the record the form builds, the gate `_valid_inputs`, and the session's answer store with its save action.

The item scorer's guard on fewer than three general answers (app.py:134) reads as a defensive check for records that never reach it. They do reach it. The gate (app.py:227-239) accepts availability "No" with nothing else answered, and availability "Sí" with currency "No", because the form asks nothing further after a "No". The form saves those records (app.py:241-246), and the scorer then excludes them (`None`) rather than scoring them 0. `Form.UnavailableSavedButExcluded` and `Form.FormScoredIff` state this.

## Model

| member | source | states |
|---|---|---|
| Scoring.RoundDiv | app.py:142-145 | the rounded value of `num / den` is within half a unit of it, and a tie goes to the even neighbour |
| Scoring.RoundDivWithin | app.py:142-145 | rounding a fraction that lies between two whole numbers gives a value between them |
| Scoring.GenValues | app.py:133 | the mapped general answers: at most one value per slot, all three exactly when no slot is empty, each value being 0, 25 or 100 as in `VAL_GEN` |
| Scoring.GenValuesAnswered | app.py:133 | one value per answered slot: the list is as long as the number of answered slots, and it holds the table value of every answered slot |
| Scoring.ValGen | app.py:112 | the table gives 100 exactly for "Sí", 0 exactly for "No", and 25 for "No es posible determinarlo" |
| Scoring.Min | app.py:136 | `min` returns an element of the list that is no larger than any element |
| Scoring.Count | app.py:142 | the number of occurrences of an answer is at most the length, and 0 exactly when the answer does not occur |
| Scoring.CountOccurrences | app.py:142 | the count of an answer equals its multiplicity in the list |
| Scoring.Applicable | app.py:138 | dropping "No aplica" keeps every "Sí" and every "No" and leaves no "No aplica" |
| Scoring.CountKinds | app.py:138-142 | every specific answer is "Sí", "No" or "No aplica", so the three counts add up to the length |
| Scoring.SpecificScore | app.py:138-143 | the specific score is a whole percentage in [0, 100] |
| Scoring.SpecificScoreShare | app.py:138-143 | the specific score is 100 when no answer is "Sí" or "No", and otherwise the share of "Sí" among the "Sí" and "No" answers, as a percentage rounded half to even |
| Scoring.SpecificScoreExtremes | app.py:138-143 | the specific score is 100 when no answer is "No" (including no applicable answers at all), and 0 when there are "No" answers and no "Sí" |
| Scoring.Blend | app.py:145 | blending a general and a specific percentage with weights 0.75 / 0.25 gives a score in [0, 100.0] % |
| Scoring.BlendBounds | app.py:145 | the blend is at most 25.0 with general 0, at most 43.8 with general at most 25, and 100.0 exactly when both parts are 100 |
| Scoring.ScoreItem | app.py:127-145 | every score the item scorer produces lies in [0, 100.0] % |
| Scoring.ScenarioMapping | app.py:127-135 | scenarios 2 and 3 score `None`; scenarios 4 and 5 score exactly 0; a scenario-1 record is scored iff all three general answers are present |
| Scoring.AnsweredValues | app.py:133 | an answered triple maps to its three table values in order |
| Scoring.GeneralScore | app.py:136 | the general score of an answered triple is in [0, 100]; it is 0 with any "No", at most 25 with any "No es posible determinarlo", and 100 iff all three are "Sí" |
| Scoring.AnsweredScore | app.py:127-145 | an answered scenario-1 record scores the blend of its general score and its specific score |
| Scoring.WeakestGeneralDominates | app.py:133-145 | a "No" caps the item at 25.0 %; a "No es posible determinarlo" caps it at 43.8 %; the item is 100.0 % iff all general answers are "Sí" and the specific score is 100 |
| Scoring.ExampleFull | app.py:127-145 | three "Sí" and no specific indicators score 100.0 |
| Scoring.ExampleUndetermined | app.py:145 | "Sí", "Sí", "No es posible determinarlo" with no specific indicators score 43.8 |
| Scoring.ConcreteApplicable | app.py:138 | the applicable answers of ["Sí", "No", "No aplica"] are ["Sí", "No"], with one "Sí" |
| Scoring.HalfSpecific | app.py:139-143 | one "Sí" and one "No" among the applicable answers give a specific score of 50 |
| Scoring.AllYesScore | app.py:133-145 | with three "Sí" general answers the item score depends on the specific score alone |
| Scoring.ExampleHalfSpecific | app.py:127-145 | three "Sí" general answers with a specific score of 50 score 87.5 |
| Catalog.FixLabel | app.py:71-74 | the misspelled category label becomes the corrected label, that label never survives the fix-up, and every other label is kept as it is |
| Catalog.Strip | app.py:80 | a stripped label is no longer than the original, and is empty or starts and ends with a non-whitespace character |
| Catalog.StripLeftSuffix | app.py:80 | `lstrip` keeps the longest suffix that does not start with whitespace |
| Catalog.StripRightPrefix | app.py:80 | `rstrip` keeps the longest prefix that does not end with whitespace |
| Catalog.StripIdempotent | app.py:80 | stripping a label twice gives the same as stripping it once |
| Catalog.FirstAppearance | app.py:86-92 | the category order holds each category of the catalog exactly once and nothing else |
| Catalog.FirstAppearanceOrdered | app.py:86-92 | of two listed categories, the earlier one first occurs earlier in the catalog |
| Catalog.BuildOrder | app.py:86-92 | the loop with the `_seen` set builds exactly the first-appearance order |
| Catalog.ItemsOf | app.py:81-83 | a category lists no more items than the catalog has rows |
| Catalog.ItemsOfMembers | app.py:81-83 | an item is listed under a category iff some row of that category carries it |
| Catalog.ItemsOfEmpty | app.py:81-83 | a category's item list is empty iff no row has that category |
| Catalog.ItemsOfCount | app.py:81-83 | a category lists exactly as many items as it has rows |
| Catalog.BuildMatToItems | app.py:81-83 | the append loop gives every category of the catalog, and no other, the items of its rows in catalog order; a missing category reads as an empty list |
| Catalog.ItemToMat | app.py:80 | every item of the catalog, and nothing else, maps to one of the catalog's categories |
| Catalog.ItemToMatLastWins | app.py:80 | an item occurring in several rows takes the category of its last row |
| Catalog.ItemCategoryListed | app.py:80-92 | the category of every item is listed in `ORDER_MAT` |
| Catalog.FirstSome | app.py:97-99 | `_num_first` finds nothing iff no cell is numeric, and otherwise the first numeric cell |
| Catalog.FirstSomeAppend | app.py:97-99 | the first numeric cell of two columns joined is the first column's, or the second column's when the first has none |
| Catalog.WeightsUnderNone | app.py:101 | a category's weight column has no number iff none of its rows has a numeric weight cell |
| Catalog.WeightsUnderFirst | app.py:97-101 | the first number in a category's weight column comes from the earliest row of that category with a numeric weight |
| Catalog.GroupWeights | app.py:101 | the grouped weights have exactly one entry per group key |
| Catalog.GroupWeightsFirst | app.py:97-101 | a group's weight, when present, is the weight of its earliest row with a numeric weight |
| Catalog.MatPesoAsWritten | app.py:101 | `MAT_PESO` as written has exactly one entry per label as loaded, before stripping |
| Catalog.MatPeso | app.py:101 | the corrected `MAT_PESO` has exactly one entry per stripped label |
| Catalog.GroupWeightsPresent | app.py:97-101 | a category has no weight iff none of its rows has a numeric weight |
| Catalog.MatPesoCoversOrder | app.py:86-101 | grouped by the loaded label, the categories that carry a weight entry are exactly those of `ORDER_MAT` |
| Catalog.PaddedCategoryUnweighted | app.py:101 | a category whose rows all carry whitespace around its label is missing from `MAT_PESO` as written, but present when grouped by the loaded label |
| Catalog.PaddedLabelLosesWeight | app.py:101 | on a two-row catalog whose first label has a trailing blank, category `A` has no weight as written |
| Catalog.PaddedWeights | app.py:97-101 | grouped by the loaded label, the same catalog weighs `A` at 90 and `B` at 10 |
| Catalog.LoadIndex | app.py:69-101 | the indexes built at start-up are the item-to-category map, the category-to-items lists, the first-appearance order, and the first numeric weight of each category grouped by the loaded label (the corrected `MAT_PESO`, see Findings) |
| Aggregate.ItemScores | app.py:149 | every saved item gets a score, and only saved items; every present score is in [0, 100.0] % |
| Aggregate.ItemScoresMeaning | app.py:127-149 | a saved item has no score iff its scenario is 2 or 3 or it is scenario 1 without all three general answers; scenarios 4 and 5 score 0; an answered scenario-1 item scores the blend of its general and specific scores |
| Aggregate.ScoredValues | app.py:152 | a category takes at most one value per listed item |
| Aggregate.ScoredValuesEmpty | app.py:152 | a category contributes no value iff none of its items has a score |
| Aggregate.ScoredValuesCons | app.py:152 | the values of a list are its first item's score, if any, then the values of the rest |
| Aggregate.ScoredValuesConcat | app.py:152 | the values of two lists joined are the first list's values followed by the second's |
| Aggregate.SumWithin | app.py:153 | a sum of values within bounds lies within the bounds times the count |
| Aggregate.CategoryScore | app.py:152-153 | a category score is `None` iff no item of the category is scored |
| Aggregate.CategoryScoreMean | app.py:152-153 | a scored category gets the mean of its scored items' values, rounded to the nearest tenth with ties to even |
| Aggregate.CategoryScoreWithin | app.py:152-153 | a category score lies within any bounds that every item score respects, so in [0, 100.0] % |
| Aggregate.UnscoredItemIgnored | app.py:152 | an item with no score does not change its category's score, wherever it sits in the category's list |
| Aggregate.ExcludedScenarioIgnored | app.py:128-152 | a scenario 2 or 3 record does not change its category's score, wherever the item sits in the category's list |
| Aggregate.ExampleCategoryMean | app.py:152-153 | a category listing items scored 0.0, unscored and 100.0 scores 50.0 |
| Aggregate.ExampleCategoryFromRecords | app.py:127-153 | saved records of scenario 4, scenario 2 and three "Sí" answers give their category 50.0 |
| Aggregate.CategoryScores | app.py:150-153 | `mat_sc` has exactly the categories of `ORDER_MAT` |
| Aggregate.CategoryScoresValues | app.py:150-153 | each entry of `mat_sc` is its category's score over its items in `MAT_TO_ITEMS` (missing categories read as no items) |
| Aggregate.CategoryScoresSnoc | app.py:151-153 | one more turn of the loop over `ORDER_MAT` sets that category's score and leaves the other entries as they were |
| Aggregate.ScoreCategories | app.py:150-153 | the loop over `ORDER_MAT` fills `mat_sc` with every category's score |
| Aggregate.WeightedPairs | app.py:155-157 | no category enters the weighted mean iff none has both a numeric weight and a score |
| Aggregate.ScoredCategories | app.py:164 | the plain mean has no values iff no category is scored |
| Aggregate.ScoredCategoriesLength | app.py:164 | the plain mean takes at most one value per listed category, and one for every listed category exactly when all of them are scored |
| Aggregate.RoundReal | app.py:159-162 | `round(x, 1)` in tenths is within half a tenth of `x`, and a tie goes to the even neighbour |
| Aggregate.RoundRealWithin | app.py:159-162 | rounding a real that lies between two whole numbers gives a value between them |
| Aggregate.GlobalScore | app.py:155-165 | the global score fails (division by zero) iff some category has a weight and a score and those weights add up to 0 |
| Aggregate.GlobalPlainMean | app.py:163-165 | when no category has both a weight and a score, the global score is the mean of the scored categories' scores rounded to the nearest tenth with ties to even, and 0 when none is scored |
| Aggregate.PairsWithin | app.py:155-157 | the weighted categories' scores respect any bound that every category score respects |
| Aggregate.PairsNonNegative | app.py:155-157 | the weights that enter the mean are non-negative when the catalog's are |
| Aggregate.WeightedSumWithin | app.py:160 | the weighted sum lies between the bounds times the weight sum, and the weight sum is non-negative |
| Aggregate.ScoredCategoriesWithin | app.py:164 | every value of the plain mean is a category score, so it respects any bound that the category scores respect |
| Aggregate.WeightedMeanWithin | app.py:159-162 | rounding a weighted sum that lies between the bounds times a positive weight sum, divided by that sum, stays within the bounds |
| Aggregate.GlobalWithin | app.py:155-165 | with non-negative weights the global score lies in [0, 100.0] %, and within any bounds containing 0 that every category score respects |
| Aggregate.ZeroSumOfNonNegative | app.py:160 | non-negative weights add up to 0 iff each is 0 |
| Aggregate.PairWeights | app.py:155-157 | the weights that enter the mean are all 0 iff every category with a weight and a score has weight 0 |
| Aggregate.GlobalFailsIffZeroWeights | app.py:155-162 | with non-negative weights the global score fails iff some category has a weight and a score and all such weights are 0 |
| Aggregate.PairsIgnoreUnweighted | app.py:155-157 | the score of a category without a weight does not enter the weighted pairs |
| Aggregate.UnweightedCategoryIgnored | app.py:155-162 | once some category is weighted and scored, an unweighted category's score does not affect the global score |
| Aggregate.ExampleWeighted | app.py:155-162 | categories at 80.0 and 40.0 with weights 60 and 40 give 64.0 |
| Aggregate.NoWeightNoPairs | app.py:155-157 | without weights no category enters the weighted mean |
| Aggregate.ExampleUnweighted | app.py:163-165 | without weights, categories at 80.0 and 45.0 give their plain mean, 62.5 |
| Aggregate.GlobalWithoutWeightA | app.py:155-162 | when `A` has no weight entry and `B` has weight 10, the padded scores (A 100.0, B 0.0) give 0.0 |
| Aggregate.GlobalWithWeightA | app.py:155-162 | when `A` has weight 90 and `B` has weight 10, the same scores give 90.0 |
| Aggregate.GlobalPaddedAsWritten | app.py:101 | with the weights as written, the padded catalog's global score is 0.0, because only `B` is weighted |
| Aggregate.GlobalPadded | app.py:155-162 | with the weights grouped by the loaded label, the same scores give 90.0 |
| Aggregate.Calculate | app.py:148-166 | for a category order without repeats, as `ORDER_MAT` is built, `_calcular` returns the item scores, the category scores over `ORDER_MAT` and the global score |
| Aggregate.CalculatedWithin | app.py:148-166 | with non-negative weights every category score and every computed global score is in [0, 100.0] % |
| Seqs.IndexOf | app.py:122 | `list.index` returns the first position holding the value |
| Form.SafeIdx | app.py:120-124 | `_safe_idx` returns the first position of a value that is among the options, and the default otherwise (including for no value) |
| Form.Prefill | app.py:186-224 | the pre-selected radios offer only "Sí"/"No" for availability and currency, and one answer per specific indicator |
| Form.SpecPrefill | app.py:223 | a specific radio shows the saved answer when the saved record has one at that position, and "Sí" otherwise |
| Form.FormRecord | app.py:196-224 | the record keeps the scenario; outside scenario 1 it has no general or specific answers; availability "No" gives `("No", None, None)` and no specific answers; "Sí" then "No" gives `("Sí", "No", None)` and no specific answers; "Sí", "Sí" keeps the completeness answer and the specific answers |
| Form.AskedCount | app.py:199-215 | the form shows at most three general questions |
| Form.FormAnswersAsked | app.py:199-224 | the record the form builds answers a general slot exactly when the form shows its question |
| Form.ValidInputs | app.py:227-239 | the gate accepts a record only when every general question the form shows for it is answered |
| Form.GateMeansAskedAnswered | app.py:199-239 | for availability and currency answers the radios can give, the gate accepts a record exactly when every question the form shows is answered, where scenario 1 shows availability, currency after availability "Sí", and completeness after currency "Sí" |
| Form.OptionsComplete | app.py:179-208 | the scenario and completeness radios offer every value |
| Form.ReopenReproduces | app.py:186-224 | reopening a saved item and saving it untouched gives back the saved record |
| Form.FreshDefaults | app.py:186-224 | a never-saved item shows scenario 1 with every answer "Sí" |
| Form.UntouchedFormFullyCompliant | app.py:186-224 | saving a fresh item without touching a radio records full compliance, 100.0 |
| Form.FormPassesGate | app.py:227-239 | every record the form builds passes the gate |
| Form.FormScoredIff | app.py:199-224 | a record built by the form is scored iff its scenario is 4 or 5, or it is scenario 1 with availability and currency "Sí" |
| Form.GateCases | app.py:227-239 | one case per branch of the gate |
| Form.UnavailableSavedButExcluded | app.py:233-234 | availability "No" passes the gate, but the record scores `None` |
| Form.Session.constructor | app.py:109 | a new session has no answers |
| Form.Session.Previous | app.py:176 | the saved record of an item, or none |
| Form.Session.Save | app.py:241-246 | when the gate fails the answers are unchanged; when it passes only the item's key is set, to `(esc, (disp, act, comp), spec)`; every stored record passed the gate |
| Form.Session.SaveForm | app.py:241-246 | saving what the form holds always succeeds and stores the form's record under the item |
| Form.StoredScored | app.py:227-246 | a stored scenario-1 record whose availability and currency are not "No" has all three general answers and is scored |

## Left out

- The Streamlit page: its layout, buttons and warnings, the logo and the `idx` navigation with its reruns. Radios are modelled only by the value each one holds.
- Reading the catalog and indicator JSON files, pandas, and sorting by `ID`. The catalog is given as its rows, already sorted by ID. A weight cell is `None` when `pd.to_numeric` would not read it as a number.
- The lookup of an item's specific indicators (`IND_ESP`). The number of indicators `n` is a parameter of `Form.Prefill`.
- The Word export (`_tabla`, `_export`) and whatever follows the truncated end of the file.
- Python floats. Scores are exact tenths and weights are exact reals, and both roundings round the exact value half to even. With floats, `round` may differ in the last digit.
- Catalog.Strip: only the space (U+0020), the tab, line feed, vertical tab, form feed and carriage return (U+0009 to U+000D) and the separators U+001C to U+001F are stripped. The non-ASCII Unicode whitespace that `str.strip` also removes (U+0085, U+00A0 and the other Unicode spaces) is not modelled.
- Aggregate.GlobalScore: it walks the categories in `ORDER_MAT` order, whereas the source sums over `MAT_PESO`'s keys. The categories that enter the sum are the same, because a key enters only when `mat_sc` has a score for it (see `Catalog.MatPesoCoversOrder`). Exact sums do not depend on order. The model does not prove that independence.
- Aggregate.Calculate: a `ZeroDivisionError` is returned as `Failure(ZeroWeightSum)` instead of aborting the page.
- The source raises `ValueError` at app.py:223 for a saved specific answer that is not one of the radios. This cannot happen in the model, because answers are a three-valued type.

## Findings

| source | as written | input that shows it | evidently intended | confidence | as-written member | corrected member |
|---|---|---|---|---|---|---|
| app.py:101 | `MAT_PESO` groups the weights by the fixed but unstripped label. `mat_sc` and `ORDER_MAT` use the stripped label. So a category whose label carries surrounding whitespace never finds its weight, and it is left out of the weighted mean. | Catalog rows `"A "` with weight 90 and `"B"` with weight 10. Category A is scored 100.0 and B is scored 0.0. The global score comes out 0.0 instead of 90.0. | Group the weights by the same stripped label as every other index. | not executed | Catalog.MatPesoAsWritten (Catalog.PaddedLabelLosesWeight, Aggregate.GlobalPaddedAsWritten) | Catalog.MatPeso (Catalog.PaddedWeights, Aggregate.GlobalPadded) |

=== FILE: aggregate.dfy ===
/**
 * The aggregation step `_calcular` (app.py:148-166): item scores, category
 * scores (the rounded mean of the scored items of each category) and the
 * global score (the weight-weighted mean of the category scores, or their
 * plain mean when no scored category has a weight).
 *
 * Scores are integers in tenths of a percent, as in `Scoring`; weights are
 * exact reals.
 */
module Aggregate {
  import opened Wrappers
  import opened Scoring
  import opened Catalog

  /** Why the global score cannot be computed: all the usable weights add up to 0. */
  datatype CalcError = ZeroWeightSum

  // ------------------------------------------------------------------------
  // Item scores

  /** The score of every saved record, by item (app.py:149). */
  function ItemScores(answers: map<string, ItemR>): (sc: map<string, Option<int>>)
    ensures forall it :: it in sc <==> it in answers
    ensures forall it :: it in sc && sc[it].Some? ==> 0 <= sc[it].value <= 1000
  {
    map it | it in answers :: ScoreItem(answers[it])
  }

  /**
   * What the score map says about one saved item: no score exactly for an
   * excluded scenario or a scenario-1 record without all three general
   * answers, 0 for scenarios 4 and 5, and otherwise the blend of its general
   * and specific scores.
   */
  lemma ItemScoresMeaning(answers: map<string, ItemR>, it: string)
    requires it in answers
    ensures var r := answers[it]; var s := ItemScores(answers)[it];
      && (s.None? <==> r.scenario == 2 || r.scenario == 3 || (r.scenario == 1 && !Answered(r.gen)))
      && ((r.scenario == 4 || r.scenario == 5) ==> s == Some(0))
      && ((r.scenario == 1 && Answered(r.gen)) ==> s == Some(Blend(GeneralScore(r.gen), SpecificScore(r.spec))))
  {
    ScenarioMapping(answers[it]);
    if answers[it].scenario == 1 && Answered(answers[it].gen) {
      AnsweredScore(answers[it]);
    }
  }

  /** Item `i` has a score: it was saved and its record was not excluded. */
  predicate IsScored(sc: map<string, Option<int>>, i: string)
  {
    i in sc && sc[i].Some?
  }

  // ------------------------------------------------------------------------
  // Category scores

  /** None of the listed items has a score. */
  predicate NoneScored(sc: map<string, Option<int>>, items: seq<string>)
  {
    forall k :: 0 <= k < |items| ==> !IsScored(sc, items[k])
  }

  /** The value item `i` contributes to its category: its score, or nothing. */
  function Taken(sc: map<string, Option<int>>, i: string): seq<int>
  {
    if IsScored(sc, i) then [sc[i].value] else []
  }

  /** The scores of the listed items that have one, in list order (app.py:152). */
  function ScoredValues(sc: map<string, Option<int>>, items: seq<string>): (nums: seq<int>)
    ensures |nums| <= |items|
  {
    if items == [] then [] else Taken(sc, items[0]) + ScoredValues(sc, items[1..])
  }

  /** A category contributes no value exactly when none of its items has a score. */
  lemma {:induction false} ScoredValuesEmpty(sc: map<string, Option<int>>, items: seq<string>)
    ensures ScoredValues(sc, items) == [] <==> NoneScored(sc, items)
  {
    if items != [] {
      ScoredValuesEmpty(sc, items[1..]);
      assert forall k :: 1 <= k < |items| ==> items[1..][k - 1] == items[k];
    }
  }

  /** The scored values of a list are its first item's, then those of the rest. */
  lemma ScoredValuesCons(sc: map<string, Option<int>>, i: string, rest: seq<string>)
    ensures ScoredValues(sc, [i] + rest) == Taken(sc, i) + ScoredValues(sc, rest)
  {
    assert ([i] + rest)[1..] == rest;
  }

  /** Dropping the head of a joined list drops the head of its first part. */
  lemma AppendTail(a: seq<string>, b: seq<string>)
    requires a != []
    ensures (a + b)[0] == a[0] && (a + b)[1..] == a[1..] + b
  {
    assert (a + b)[1..] == a[1..] + b;
  }

  /** The scored values of two lists joined are those of the first, then those of the second. */
  lemma {:induction false} ScoredValuesConcat(sc: map<string, Option<int>>, a: seq<string>, b: seq<string>)
    ensures ScoredValues(sc, a + b) == ScoredValues(sc, a) + ScoredValues(sc, b)
  {
    if a == [] {
      assert a + b == b;
    } else {
      AppendTail(a, b);
      ScoredValuesConcat(sc, a[1..], b);
    }
  }

  /** Every value taken is the score of one of the listed items. */
  lemma {:induction false} ScoredValuesFrom(sc: map<string, Option<int>>, items: seq<string>, lo: int, hi: int)
    requires forall i :: IsScored(sc, i) ==> lo <= sc[i].value <= hi
    ensures forall k :: 0 <= k < |ScoredValues(sc, items)| ==> lo <= ScoredValues(sc, items)[k] <= hi
  {
    if items != [] {
      ScoredValuesFrom(sc, items[1..], lo, hi);
    }
  }

  /** The sum of a list of scores. */
  function Sum(xs: seq<int>): int
  {
    if xs == [] then 0 else xs[0] + Sum(xs[1..])
  }

  /** A sum of values in `[lo, hi]` lies between `lo` and `hi` times the count. */
  lemma {:induction false} SumWithin(xs: seq<int>, lo: int, hi: int)
    requires forall k :: 0 <= k < |xs| ==> lo <= xs[k] <= hi
    ensures lo * |xs| <= Sum(xs) <= hi * |xs|
  {
    if xs != [] {
      assert forall k :: 0 <= k < |xs[1..]| ==> xs[1..][k] == xs[k + 1];
      var n := |xs[1..]|;
      SumWithin(xs[1..], lo, hi);
      assert |xs| == n + 1;
      assert lo * (n + 1) == lo * n + lo;
      assert hi * (n + 1) == hi * n + hi;
    }
  }

  /**
   * The score of one category: `None` when none of its items is scored,
   * otherwise the mean of its item scores rounded to a tenth (app.py:152-153).
   */
  function CategoryScore(sc: map<string, Option<int>>, items: seq<string>): (c: Option<int>)
    ensures c.None? <==> forall k :: 0 <= k < |items| ==> !IsScored(sc, items[k])
  {
    ScoredValuesEmpty(sc, items);
    var nums := ScoredValues(sc, items);
    if nums == [] then None else Some(RoundDiv(Sum(nums), |nums|))
  }

  /**
   * A scored category gets the mean of its scored items' values, rounded to
   * the nearest tenth of a percent with ties to the even neighbour.
   */
  lemma CategoryScoreMean(sc: map<string, Option<int>>, items: seq<string>)
    ensures var c := CategoryScore(sc, items); var nums := ScoredValues(sc, items);
      c.Some? ==>
        && nums != []
        && 2 * Sum(nums) - |nums| <= 2 * |nums| * c.value <= 2 * Sum(nums) + |nums|
        && ((2 * |nums| * c.value == 2 * Sum(nums) - |nums| || 2 * |nums| * c.value == 2 * Sum(nums) + |nums|) ==> c.value % 2 == 0)
  {
    var nums := ScoredValues(sc, items);
    if nums != [] {
      var r := RoundDiv(Sum(nums), |nums|);
      assert CategoryScore(sc, items) == Some(r);
    }
  }

  /**
   * A category score is the mean of its scored items, so it lies within any
   * bounds that hold for every item score; in particular within [0, 100] %.
   */
  lemma CategoryScoreWithin(sc: map<string, Option<int>>, items: seq<string>, lo: int, hi: int)
    requires forall i :: IsScored(sc, i) ==> lo <= sc[i].value <= hi
    ensures CategoryScore(sc, items).Some? ==> lo <= CategoryScore(sc, items).value <= hi
  {
    var nums := ScoredValues(sc, items);
    if nums != [] {
      ScoredValuesFrom(sc, items, lo, hi);
      SumWithin(nums, lo, hi);
      RoundDivWithin(Sum(nums), |nums|, lo, hi);
    }
  }

  /**
   * An item that is not scored (excluded, or not yet answered) does not
   * change its category's score, wherever it sits in the category's list.
   */
  lemma UnscoredItemIgnored(sc: map<string, Option<int>>, a: seq<string>, i: string, b: seq<string>)
    requires !IsScored(sc, i)
    ensures CategoryScore(sc, a + [i] + b) == CategoryScore(sc, a + b)
  {
    assert a + [i] + b == a + ([i] + b);
    assert ([i] + b)[1..] == b;
    ScoredValuesConcat(sc, a, [i] + b);
    ScoredValuesConcat(sc, a, b);
    assert ScoredValues(sc, [i] + b) == ScoredValues(sc, b);
  }

  /**
   * A record of scenario 2 or 3 is excluded, so it does not change its
   * category's score, wherever the item sits in the category's list.
   */
  lemma ExcludedScenarioIgnored(answers: map<string, ItemR>, a: seq<string>, i: string, b: seq<string>)
    requires i in answers && (answers[i].scenario == 2 || answers[i].scenario == 3)
    ensures CategoryScore(ItemScores(answers), a + [i] + b) == CategoryScore(ItemScores(answers), a + b)
  {
    ScenarioMapping(answers[i]);
    UnscoredItemIgnored(ItemScores(answers), a, i, b);
  }

  /**
   * A category listing a 0.0 item, an unscored item and a 100.0 item, in that
   * order, scores 50.0.
   */
  lemma ExampleCategoryMean(sc: map<string, Option<int>>)
    requires "x" in sc && "z" in sc && "y" in sc
    requires sc["x"] == Some(0) && sc["z"] == None && sc["y"] == Some(1000)
    ensures CategoryScore(sc, ["x", "z", "y"]) == Some(500)
  {
    assert Taken(sc, "x") == [0] && Taken(sc, "z") == [] && Taken(sc, "y") == [1000];
    ScoredValuesCons(sc, "y", []);
    assert ["y"] + [] == ["y"];
    ScoredValuesCons(sc, "z", ["y"]);
    assert ["z"] + ["y"] == ["z", "y"];
    ScoredValuesCons(sc, "x", ["z", "y"]);
    assert ["x"] + ["z", "y"] == ["x", "z", "y"];
    assert ScoredValues(sc, ["x", "z", "y"]) == [0, 1000];
    assert Sum([0, 1000]) == 1000 by {
      assert [0, 1000][1..] == [1000];
    }
    assert RoundDiv(1000, 2) == 500;
  }

  /**
   * From saved records to a category score: a scenario-4 item (0), an
   * excluded scenario-2 item and a fully compliant item (100.0) give the
   * category 50.0.
   */
  lemma ExampleCategoryFromRecords()
    ensures var answers := map[
        "x" := ItemR(4, (None, None, None), []),
        "z" := ItemR(2, (None, None, None), []),
        "y" := ItemR(1, (Some(Yes), Some(Yes), Some(Yes)), [])];
      CategoryScore(ItemScores(answers), ["x", "z", "y"]) == Some(500)
  {
    var rx, rz, ry := ItemR(4, (None, None, None), []), ItemR(2, (None, None, None), []), ItemR(1, (Some(Yes), Some(Yes), Some(Yes)), []);
    ScenarioMapping(rx);
    ScenarioMapping(rz);
    ExampleFull();
    var answers := map["x" := rx, "z" := rz, "y" := ry];
    assert answers["x"] == rx && answers["z"] == rz && answers["y"] == ry;
    var sc := ItemScores(answers);
    assert sc["x"] == Some(0) && sc["z"] == None && sc["y"] == Some(1000);
    ExampleCategoryMean(sc);
  }

  /** `mat_sc`: the score of every category in `ORDER_MAT`, and of nothing else. */
  function CategoryScores(order: seq<string>, mti: map<string, seq<string>>, sc: map<string, Option<int>>): (ms: map<string, Option<int>>)
    ensures forall m :: m in ms <==> m in order
  {
    if order == [] then map[]
    else
      var n := |order| - 1;
      assert order == order[..n] + [order[n]];
      CategoryScores(order[..n], mti, sc)[order[n] := CategoryScore(sc, Lookup(mti, order[n]))]
  }

  /** Each category of `mat_sc` holds that category's score, whatever repeats `ORDER_MAT` has. */
  lemma {:induction false} CategoryScoresValues(order: seq<string>, mti: map<string, seq<string>>, sc: map<string, Option<int>>)
    ensures var ms := CategoryScores(order, mti, sc);
      forall m :: m in ms ==> ms[m] == CategoryScore(sc, Lookup(mti, m))
  {
    if order != [] {
      CategoryScoresValues(order[..|order| - 1], mti, sc);
    }
  }

  // ------------------------------------------------------------------------
  // Global score

  /**
   * `pesos`, as (score, weight) pairs in category order: every category with
   * a numeric weight and a score.
   */
  function WeightedPairs(order: seq<string>, ms: map<string, Option<int>>, peso: map<string, Option<real>>): (ps: seq<(int, real)>)
    ensures |ps| <= |order|
    ensures ps == [] <==> forall k :: 0 <= k < |order| ==> !(HasWeight(peso, order[k]) && HasScore(ms, order[k]))
  {
    if order == [] then []
    else
      var rest := WeightedPairs(order[1..], ms, peso);
      assert forall k :: 1 <= k < |order| ==> order[1..][k - 1] == order[k];
      PairOf(order[0], ms, peso) + rest
  }

  /** The pair of one category: its score and weight when it has both, nothing otherwise. */
  function PairOf(m: string, ms: map<string, Option<int>>, peso: map<string, Option<real>>): seq<(int, real)>
  {
    if HasWeight(peso, m) && HasScore(ms, m) then [(ms[m].value, peso[m].value)] else []
  }

  /** The category has a numeric weight (app.py:156). */
  predicate HasWeight(peso: map<string, Option<real>>, m: string)
  {
    m in peso && peso[m].Some?
  }

  /** The category has a score (app.py:156). */
  predicate HasScore(ms: map<string, Option<int>>, m: string)
  {
    m in ms && ms[m].Some?
  }

  /** The sum of the weights of the pairs (the divisor of app.py:160). */
  function WeightSum(ps: seq<(int, real)>): real
  {
    if ps == [] then 0.0 else ps[0].1 + WeightSum(ps[1..])
  }

  /** The sum of each pair's score times its weight (the dividend of app.py:160). */
  function WeightedSum(ps: seq<(int, real)>): real
  {
    if ps == [] then 0.0 else ps[0].0 as real * ps[0].1 + WeightedSum(ps[1..])
  }

  /** The scores of the scored categories, in category order (app.py:164). */
  function ScoredCategories(order: seq<string>, ms: map<string, Option<int>>): (vals: seq<int>)
    ensures vals == [] <==> forall k :: 0 <= k < |order| ==> !HasScore(ms, order[k])
  {
    if order == [] then []
    else
      var rest := ScoredCategories(order[1..], ms);
      assert forall k :: 1 <= k < |order| ==> order[1..][k - 1] == order[k];
      ScoreOf(order[0], ms) + rest
  }

  /** The score of one category when it has one, nothing otherwise. */
  function ScoreOf(m: string, ms: map<string, Option<int>>): seq<int>
  {
    if HasScore(ms, m) then [ms[m].value] else []
  }

  /**
   * The plain mean takes one value per scored category: as many values as
   * listed categories exactly when every listed category is scored.
   */
  lemma {:induction false} ScoredCategoriesLength(order: seq<string>, ms: map<string, Option<int>>)
    ensures |ScoredCategories(order, ms)| <= |order|
    ensures |ScoredCategories(order, ms)| == |order| <==> forall k :: 0 <= k < |order| ==> HasScore(ms, order[k])
  {
    if order != [] {
      ScoredCategoriesLength(order[1..], ms);
      assert forall k :: 1 <= k < |order| ==> order[1..][k - 1] == order[k];
    }
  }

  /** Rounding to the nearest tenth, `x` being in tenths: the integer nearest to `x`, ties to the even one. */
  function RoundReal(x: real): (r: int)
    ensures x - 0.5 <= r as real <= x + 0.5
    ensures (x - r as real == 0.5 || r as real - x == 0.5) ==> r % 2 == 0
  {
    var f := x.Floor;
    var d := x - f as real;
    if d < 0.5 then f
    else if d > 0.5 then f + 1
    else if f % 2 == 0 then f
    else f + 1
  }

  /** Rounding a real never leaves an interval with integer end points. */
  lemma RoundRealWithin(x: real, lo: int, hi: int)
    requires lo as real <= x <= hi as real
    ensures lo <= RoundReal(x) <= hi
  {
  }

  /**
   * The global score. With at least one category that has both a weight and
   * a score: the weighted mean of those categories' scores, which fails when
   * their weights add up to 0. Otherwise the plain mean of the scored
   * categories, or 0 when no category is scored.
   */
  function GlobalScore(order: seq<string>, ms: map<string, Option<int>>, peso: map<string, Option<real>>): (g: Result<int, CalcError>)
    ensures g.Failure? <==> WeightedPairs(order, ms, peso) != [] && WeightSum(WeightedPairs(order, ms, peso)) == 0.0
  {
    var ps := WeightedPairs(order, ms, peso);
    if ps != [] then
      var w := WeightSum(ps);
      if w == 0.0 then Failure(ZeroWeightSum)
      else Success(RoundReal(WeightedSum(ps) / w))
    else
      var vals := ScoredCategories(order, ms);
      if vals == [] then Success(0)
      else Success(RoundDiv(Sum(vals), |vals|))
  }

  /** Every pair has a non-negative weight. */
  predicate NonNegativeWeights(ps: seq<(int, real)>)
  {
    ps == [] || (ps[0].1 >= 0.0 && NonNegativeWeights(ps[1..]))
  }

  /** Every pair has a score in `[lo, hi]`. */
  predicate ScoresWithin(ps: seq<(int, real)>, lo: int, hi: int)
  {
    ps == [] || (lo <= ps[0].0 <= hi && ScoresWithin(ps[1..], lo, hi))
  }

  /** The pairs carry non-negative weights when the catalog's weights are non-negative. */
  lemma {:induction false} PairsNonNegative(order: seq<string>, ms: map<string, Option<int>>, peso: map<string, Option<real>>)
    requires forall m :: HasWeight(peso, m) ==> peso[m].value >= 0.0
    ensures NonNegativeWeights(WeightedPairs(order, ms, peso))
  {
    if order != [] {
      PairsNonNegative(order[1..], ms, peso);
      var m := order[0];
      var rest := WeightedPairs(order[1..], ms, peso);
      if HasWeight(peso, m) && HasScore(ms, m) {
        var ps := [(ms[m].value, peso[m].value)] + rest;
        assert ps[1..] == rest;
        assert WeightedPairs(order, ms, peso) == ps;
      } else {
        assert WeightedPairs(order, ms, peso) == rest;
      }
    }
  }

  /** The pairs carry scores in `[lo, hi]` when every category score is. */
  lemma {:induction false} PairsWithin(order: seq<string>, ms: map<string, Option<int>>, peso: map<string, Option<real>>, lo: int, hi: int)
    requires forall m :: HasScore(ms, m) ==> lo <= ms[m].value <= hi
    ensures ScoresWithin(WeightedPairs(order, ms, peso), lo, hi)
  {
    if order != [] {
      PairsWithin(order[1..], ms, peso, lo, hi);
      var m := order[0];
      var rest := WeightedPairs(order[1..], ms, peso);
      if HasWeight(peso, m) && HasScore(ms, m) {
        var ps := [(ms[m].value, peso[m].value)] + rest;
        assert ps[1..] == rest;
        assert WeightedPairs(order, ms, peso) == ps;
      } else {
        assert WeightedPairs(order, ms, peso) == rest;
      }
    }
  }

  /** Scaling a bound by a non-negative weight. */
  lemma ScaleWithin(s: int, w: real, lo: int, hi: int)
    requires lo <= s <= hi && w >= 0.0
    ensures lo as real * w <= s as real * w <= hi as real * w
  {
    assert (s - lo) as real * w >= 0.0;
    assert (hi - s) as real * w >= 0.0;
  }

  /** Adding one weighted term to a bounded weighted sum. */
  lemma AddWithin(s: real, w: real, s': real, w': real, lo: real, hi: real)
    requires lo * w <= s * w <= hi * w
    requires lo * w' <= s' <= hi * w'
    ensures lo * (w + w') <= s * w + s' <= hi * (w + w')
  {
    assert lo * (w + w') == lo * w + lo * w';
    assert hi * (w + w') == hi * w + hi * w';
  }

  /** A weighted sum of scores in `[lo, hi]` lies between `lo` and `hi` times the weight sum. */
  lemma {:induction false} WeightedSumWithin(ps: seq<(int, real)>, lo: int, hi: int)
    requires NonNegativeWeights(ps) && ScoresWithin(ps, lo, hi)
    ensures WeightSum(ps) >= 0.0
    ensures lo as real * WeightSum(ps) <= WeightedSum(ps) <= hi as real * WeightSum(ps)
  {
    if ps != [] {
      WeightedSumWithin(ps[1..], lo, hi);
      ScaleWithin(ps[0].0, ps[0].1, lo, hi);
      AddWithin(ps[0].0 as real, ps[0].1, WeightedSum(ps[1..]), WeightSum(ps[1..]), lo as real, hi as real);
    }
  }

  /** Dividing by a positive weight sum keeps a weighted mean within its bounds. */
  lemma DivWithin(a: real, w: real, lo: real, hi: real)
    requires w > 0.0 && lo * w <= a <= hi * w
    ensures lo <= a / w <= hi
  {
    var x := a / w;
    assert x * w == a;
    assert (x - lo) * w >= 0.0;
    assert (hi - x) * w >= 0.0;
  }

  /** Every plain-mean value is a category score. */
  lemma {:induction false} ScoredCategoriesWithin(order: seq<string>, ms: map<string, Option<int>>, lo: int, hi: int)
    requires forall m :: HasScore(ms, m) ==> lo <= ms[m].value <= hi
    ensures forall k :: 0 <= k < |ScoredCategories(order, ms)| ==> lo <= ScoredCategories(order, ms)[k] <= hi
  {
    if order != [] {
      ScoredCategoriesWithin(order[1..], ms, lo, hi);
    }
  }

  /**
   * Rounding the quotient of a weighted sum that lies between `lo` and `hi`
   * times a positive weight sum gives a value between `lo` and `hi`.
   */
  lemma WeightedMeanWithin(a: real, w: real, lo: int, hi: int)
    requires w > 0.0 && lo as real * w <= a <= hi as real * w
    ensures lo <= RoundReal(a / w) <= hi
  {
    DivWithin(a, w, lo as real, hi as real);
    RoundRealWithin(a / w, lo, hi);
  }

  /**
   * When no category has both a weight and a score, the global score is the
   * mean of the scored categories' scores, rounded to the nearest tenth with
   * ties to the even neighbour, and 0 when no category is scored
   * (app.py:163-165).
   */
  lemma GlobalPlainMean(order: seq<string>, ms: map<string, Option<int>>, peso: map<string, Option<real>>)
    requires WeightedPairs(order, ms, peso) == []
    ensures var vals := ScoredCategories(order, ms); var g := GlobalScore(order, ms, peso);
      && (vals == [] ==> g == Success(0))
      && (vals != [] ==>
            && g.Success?
            && 2 * Sum(vals) - |vals| <= 2 * |vals| * g.value <= 2 * Sum(vals) + |vals|
            && ((2 * |vals| * g.value == 2 * Sum(vals) - |vals| || 2 * |vals| * g.value == 2 * Sum(vals) + |vals|) ==> g.value % 2 == 0))
  {
    var vals := ScoredCategories(order, ms);
    if vals != [] {
      assert GlobalScore(order, ms, peso) == Success(RoundDiv(Sum(vals), |vals|));
    }
  }

  /**
   * With non-negative weights, the global score lies within any bounds that
   * hold for every category score and include 0 (in particular within
   * [0, 100] %).
   */
  lemma GlobalWithin(order: seq<string>, ms: map<string, Option<int>>, peso: map<string, Option<real>>, lo: int, hi: int)
    requires lo <= 0 <= hi
    requires forall m :: HasScore(ms, m) ==> lo <= ms[m].value <= hi
    requires forall m :: HasWeight(peso, m) ==> peso[m].value >= 0.0
    ensures GlobalScore(order, ms, peso).Success? ==> lo <= GlobalScore(order, ms, peso).value <= hi
  {
    var ps := WeightedPairs(order, ms, peso);
    if ps != [] {
      PairsNonNegative(order, ms, peso);
      PairsWithin(order, ms, peso, lo, hi);
      WeightedSumWithin(ps, lo, hi);
      if WeightSum(ps) != 0.0 {
        WeightedMeanWithin(WeightedSum(ps), WeightSum(ps), lo, hi);
      }
    } else {
      var vals := ScoredCategories(order, ms);
      if vals != [] {
        ScoredCategoriesWithin(order, ms, lo, hi);
        SumWithin(vals, lo, hi);
        RoundDivWithin(Sum(vals), |vals|, lo, hi);
      }
    }
  }

  /** Every pair has weight 0. */
  predicate ZeroWeights(ps: seq<(int, real)>)
  {
    ps == [] || (ps[0].1 == 0.0 && ZeroWeights(ps[1..]))
  }

  /** The weight sum of non-negative weights is 0 exactly when each of them is 0. */
  lemma {:induction false} ZeroSumOfNonNegative(ps: seq<(int, real)>)
    requires NonNegativeWeights(ps)
    ensures WeightSum(ps) >= 0.0
    ensures WeightSum(ps) == 0.0 <==> ZeroWeights(ps)
  {
    if ps != [] {
      ZeroSumOfNonNegative(ps[1..]);
    }
  }

  /** Every category that has both a weight and a score has weight 0. */
  predicate UsableWeightsZero(order: seq<string>, ms: map<string, Option<int>>, peso: map<string, Option<real>>)
  {
    forall k :: 0 <= k < |order| && HasWeight(peso, order[k]) && HasScore(ms, order[k]) ==> peso[order[k]].value == 0.0
  }

  /** The pairs carry the weight of every category that has a weight and a score, and nothing else. */
  lemma {:induction false} PairWeights(order: seq<string>, ms: map<string, Option<int>>, peso: map<string, Option<real>>)
    ensures ZeroWeights(WeightedPairs(order, ms, peso)) <==> UsableWeightsZero(order, ms, peso)
  {
    if order != [] {
      PairWeights(order[1..], ms, peso);
      var m := order[0];
      var rest := WeightedPairs(order[1..], ms, peso);
      assert UsableWeightsZero(order, ms, peso) <==>
        (HasWeight(peso, m) && HasScore(ms, m) ==> peso[m].value == 0.0) && UsableWeightsZero(order[1..], ms, peso)
      by {
        assert forall k :: 1 <= k < |order| ==> order[k] == order[1..][k - 1];
      }
      if HasWeight(peso, m) && HasScore(ms, m) {
        var ps := [(ms[m].value, peso[m].value)] + rest;
        assert WeightedPairs(order, ms, peso) == ps;
        assert ps[1..] == rest;
      } else {
        assert WeightedPairs(order, ms, peso) == rest;
      }
    }
  }

  /**
   * With non-negative weights, the global score fails (the source's division
   * by zero) exactly when some category has both a weight and a score and
   * every such category's weight is 0.
   */
  lemma GlobalFailsIffZeroWeights(order: seq<string>, ms: map<string, Option<int>>, peso: map<string, Option<real>>)
    requires forall m :: HasWeight(peso, m) ==> peso[m].value >= 0.0
    ensures GlobalScore(order, ms, peso).Failure? <==>
      (exists k :: 0 <= k < |order| && HasWeight(peso, order[k]) && HasScore(ms, order[k])) &&
      UsableWeightsZero(order, ms, peso)
  {
    PairsNonNegative(order, ms, peso);
    ZeroSumOfNonNegative(WeightedPairs(order, ms, peso));
    PairWeights(order, ms, peso);
  }

  /** Changing the score of a category without a weight does not change the pairs. */
  lemma {:induction false} PairsIgnoreUnweighted(order: seq<string>, ms: map<string, Option<int>>, peso: map<string, Option<real>>, m: string, v: Option<int>)
    requires !HasWeight(peso, m)
    ensures WeightedPairs(order, ms[m := v], peso) == WeightedPairs(order, ms, peso)
  {
    if order != [] {
      PairsIgnoreUnweighted(order[1..], ms, peso, m, v);
    }
  }

  /**
   * Once some category has both a weight and a score, the global score is
   * the weighted mean alone: the score of a category without a weight does
   * not affect it.
   */
  lemma UnweightedCategoryIgnored(order: seq<string>, ms: map<string, Option<int>>, peso: map<string, Option<real>>, m: string, v: Option<int>)
    requires !HasWeight(peso, m)
    requires WeightedPairs(order, ms, peso) != []
    ensures GlobalScore(order, ms[m := v], peso) == GlobalScore(order, ms, peso)
  {
    PairsIgnoreUnweighted(order, ms, peso, m, v);
  }

  /** The pairs of two categories. */
  lemma PairsOfTwo(a: string, b: string, ms: map<string, Option<int>>, peso: map<string, Option<real>>)
    ensures WeightedPairs([a, b], ms, peso) == PairOf(a, ms, peso) + PairOf(b, ms, peso)
  {
    assert [a, b][1..] == [b] && [b][1..] == [];
  }

  /** The sums over two pairs. */
  lemma SumsOfTwo(p: (int, real), q: (int, real))
    ensures WeightSum([p, q]) == p.1 + q.1
    ensures WeightedSum([p, q]) == p.0 as real * p.1 + q.0 as real * q.1
  {
    assert [p, q][1..] == [q] && [q][1..] == [];
    assert WeightSum([q]) == q.1 && WeightedSum([q]) == q.0 as real * q.1;
  }

  /** The weighted mean of a non-empty list of pairs with a non-zero weight sum. */
  lemma WeightedGlobal(order: seq<string>, ms: map<string, Option<int>>, peso: map<string, Option<real>>, ps: seq<(int, real)>, w: real, x: real)
    requires WeightedPairs(order, ms, peso) == ps && ps != []
    requires WeightSum(ps) == w && w != 0.0 && WeightedSum(ps) == x * w
    ensures GlobalScore(order, ms, peso) == Success(RoundReal(x))
  {
    DivExact(x, w);
  }

  /** Dividing a product by one of its non-zero factors gives the other. */
  lemma DivExact(x: real, w: real)
    requires w != 0.0
    ensures (x * w) / w == x
  {
  }

  /** Two categories scored 80.0 and 40.0 with weights 60 and 40 give a global score of 64.0. */
  lemma ExampleWeighted()
    ensures GlobalScore(["A", "B"], map["A" := Some(800), "B" := Some(400)], map["A" := Some(60.0), "B" := Some(40.0)]) == Success(640)
  {
    var ms := map["A" := Some(800), "B" := Some(400)];
    var peso := map["A" := Some(60.0), "B" := Some(40.0)];
    PairsOfTwo("A", "B", ms, peso);
    assert PairOf("A", ms, peso) == [(800, 60.0)];
    assert PairOf("B", ms, peso) == [(400, 40.0)];
    SumsOfTwo((800, 60.0), (400, 40.0));
    WeightedGlobal(["A", "B"], ms, peso, [(800, 60.0), (400, 40.0)], 100.0, 640.0);
    assert RoundReal(640.0) == 640;
  }

  /** With no weight at all, no category forms a pair. */
  lemma {:induction false} NoWeightNoPairs(order: seq<string>, ms: map<string, Option<int>>)
    ensures WeightedPairs(order, ms, map[]) == []
  {
    if order != [] {
      NoWeightNoPairs(order[1..], ms);
    }
  }

  /** The plain-mean values of two categories. */
  lemma ScoredOfTwo(a: string, b: string, ms: map<string, Option<int>>)
    ensures ScoredCategories([a, b], ms) == ScoreOf(a, ms) + ScoreOf(b, ms)
  {
    assert [a, b][1..] == [b] && [b][1..] == [];
  }

  /** Without any weight, the global score is the plain mean of the scored categories. */
  lemma ExampleUnweighted()
    ensures GlobalScore(["A", "B"], map["A" := Some(800), "B" := Some(450)], map[]) == Success(625)
  {
    var ms := map["A" := Some(800), "B" := Some(450)];
    NoWeightNoPairs(["A", "B"], ms);
    ScoredOfTwo("A", "B", ms);
    assert ScoreOf("A", ms) == [800];
    assert ScoreOf("B", ms) == [450];
    var vals := ScoredCategories(["A", "B"], ms);
    assert vals == [800, 450];
    assert Sum(vals) == 1250 by {
      assert vals[1..] == [450] && vals[1..][1..] == [];
    }
    assert RoundDiv(1250, 2) == 625;
  }

  /** Scores of the two categories of `PaddedCatalog`: `A` fully compliant, `B` not at all. */
  function PaddedScores(): map<string, Option<int>>
  {
    map["A" := Some(1000), "B" := Some(0)]
  }

  /** With no weight under `A` and weight 10 under `B`, only `B` counts. */
  lemma GlobalWithoutWeightA(peso: map<string, Option<real>>)
    requires "A" !in peso && "B" in peso && peso["B"] == Some(10.0)
    ensures GlobalScore(["A", "B"], PaddedScores(), peso) == Success(0)
  {
    var ms := PaddedScores();
    PairsOfTwo("A", "B", ms, peso);
    assert PairOf("A", ms, peso) == [];
    assert PairOf("B", ms, peso) == [(0, 10.0)];
    var ps := [(0, 10.0)];
    assert ps[1..] == [];
    WeightedGlobal(["A", "B"], ms, peso, ps, 10.0, 0.0);
    assert RoundReal(0.0) == 0;
  }

  /** With weight 90 under `A` and 10 under `B`, the global score is 90.0. */
  lemma GlobalWithWeightA(peso: map<string, Option<real>>)
    requires "A" in peso && peso["A"] == Some(90.0) && "B" in peso && peso["B"] == Some(10.0)
    ensures GlobalScore(["A", "B"], PaddedScores(), peso) == Success(900)
  {
    var ms := PaddedScores();
    PairsOfTwo("A", "B", ms, peso);
    assert PairOf("A", ms, peso) == [(1000, 90.0)];
    assert PairOf("B", ms, peso) == [(0, 10.0)];
    SumsOfTwo((1000, 90.0), (0, 10.0));
    WeightedGlobal(["A", "B"], ms, peso, [(1000, 90.0), (0, 10.0)], 100.0, 900.0);
    assert RoundReal(900.0) == 900;
  }

  /**
   * As written, the weight of `A` is lost, so only `B` (weight 10) counts and
   * the global score is 0.0.
   */
  lemma GlobalPaddedAsWritten()
    ensures GlobalScore(["A", "B"], PaddedScores(), MatPesoAsWritten(PaddedCatalog())) == Success(0)
  {
    PaddedLabelLosesWeight();
    GlobalWithoutWeightA(MatPesoAsWritten(PaddedCatalog()));
  }

  /**
   * Grouped by the loaded label, `A` keeps its weight 90 and the global score
   * is (100.0 * 90 + 0.0 * 10) / 100 = 90.0.
   */
  lemma GlobalPadded()
    ensures GlobalScore(["A", "B"], PaddedScores(), MatPeso(PaddedCatalog())) == Success(900)
  {
    PaddedWeights();
    GlobalWithWeightA(MatPeso(PaddedCatalog()));
  }

  // ------------------------------------------------------------------------
  // _calcular

  /** Scoring one more category of `ORDER_MAT` sets that category's score. */
  lemma CategoryScoresSnoc(p: seq<string>, m: string, mti: map<string, seq<string>>, sc: map<string, Option<int>>)
    ensures CategoryScores(p + [m], mti, sc) == CategoryScores(p, mti, sc)[m := CategoryScore(sc, Lookup(mti, m))]
  {
    assert (p + [m])[..|p|] == p;
  }

  /** The loop of `_calcular` over `ORDER_MAT`: the score of every category, in turn. */
  method ScoreCategories(order: seq<string>, mti: map<string, seq<string>>, itemSc: map<string, Option<int>>) returns (matSc: map<string, Option<int>>)
    ensures matSc == CategoryScores(order, mti, itemSc)
  {
    matSc := map[];
    for i := 0 to |order|
      invariant matSc == CategoryScores(order[..i], mti, itemSc)
    {
      var m := order[i];
      CategoryScoresSnoc(order[..i], m, mti, itemSc);
      assert order[..i + 1] == order[..i] + [m];
      matSc := matSc[m := CategoryScore(itemSc, Lookup(mti, m))];
    }
    assert order[..|order|] == order;
  }

  /**
   * `_calcular`: score every answered item, then every category of
   * `ORDER_MAT`, then the whole assessment.
   */
  method Calculate(answers: map<string, ItemR>, cat: CatalogIndex) returns (itemSc: map<string, Option<int>>, matSc: map<string, Option<int>>, glob: Result<int, CalcError>)
    requires NoDuplicates(cat.order)
    ensures itemSc == ItemScores(answers)
    ensures matSc == CategoryScores(cat.order, cat.matToItems, itemSc)
    ensures glob == GlobalScore(cat.order, matSc, cat.matPeso)
  {
    itemSc := ItemScores(answers);
    matSc := ScoreCategories(cat.order, cat.matToItems, itemSc);
    glob := GlobalScore(cat.order, matSc, cat.matPeso);
  }

  /**
   * Whatever was answered, every computed score is a percentage in
   * [0, 100] % when the catalog's weights are non-negative.
   */
  lemma CalculatedWithin(answers: map<string, ItemR>, cat: CatalogIndex)
    requires forall m :: HasWeight(cat.matPeso, m) ==> cat.matPeso[m].value >= 0.0
    ensures var sc := ItemScores(answers);
      var ms := CategoryScores(cat.order, cat.matToItems, sc);
      && (forall m :: HasScore(ms, m) ==> 0 <= ms[m].value <= 1000)
      && (GlobalScore(cat.order, ms, cat.matPeso).Success? ==> 0 <= GlobalScore(cat.order, ms, cat.matPeso).value <= 1000)
  {
    var sc := ItemScores(answers);
    var ms := CategoryScores(cat.order, cat.matToItems, sc);
    CategoryScoresValues(cat.order, cat.matToItems, sc);
    forall m | HasScore(ms, m) ensures 0 <= ms[m].value <= 1000 {
      CategoryScoreWithin(sc, Lookup(cat.matToItems, m), 0, 1000);
    }
    GlobalWithin(cat.order, ms, cat.matPeso, 0, 1000);
  }
}

=== FILE: catalog.dfy ===
/**
 * The item catalog and its indexes (app.py:68-101): the label fix-up, the
 * item -> category and category -> items maps, the category order and the
 * first numeric weight of each category.
 *
 * The catalog is given as its rows already sorted by their numeric ID; reading
 * the JSON file and sorting it are not part of this model. The indexes are
 * defined over the column of category labels (`labels[i]` is the category of
 * row `i`), which `Labels` computes from the rows.
 */
module Catalog {
  import opened Wrappers
  import opened Seqs

  /**
   * One catalog row: its numeric `ID`, its item name (`Ítem`), its category
   * label as stored (`Materia`) and its category weight cell
   * (`Peso Materia (%)`), `None` when the cell is not a number.
   */
  datatype Row = Row(id: int, item: string, materia: string, weight: Option<real>)

  // ------------------------------------------------------------------------
  // Category labels

  /** The one misspelled category label found in the data, and its correction. */
  const Misspelled: string := "Actos y resoluciones que tengas efectos sobre terceros"
  const Corrected: string := "Actos y resoluciones con efectos sobre terceros"

  /** The load-time fix-up: a label equal to the misspelled one is replaced whole. */
  function FixLabel(m: string): (r: string)
    ensures r != Misspelled
    ensures m == Misspelled ==> r == Corrected
    ensures m != Misspelled ==> r == m
  {
    if m == Misspelled then Corrected else m
  }

  /** A label shorter than the misspelled one is left as it is. */
  lemma FixShortLabel(m: string)
    requires |m| < 10
    ensures FixLabel(m) == m
  {
    assert |Misspelled| > 10;
  }

  /**
   * The ASCII characters that Python counts as whitespace and so strips: the
   * blank, tab, line feed, vertical tab, form feed, carriage return and the
   * four separators U+001C to U+001F.
   */
  predicate IsSpace(c: char)
  {
    c == ' ' || ('\t' <= c <= '\r') || ('\U{001C}' <= c <= '\U{001F}')
  }

  /** Drop the whitespace at the start of `s`. */
  function StripLeft(s: string): string
  {
    if s != [] && IsSpace(s[0]) then StripLeft(s[1..]) else s
  }

  /** Drop the whitespace at the end of `s`. */
  function StripRight(s: string): string
  {
    if s != [] && IsSpace(s[|s| - 1]) then StripRight(s[..|s| - 1]) else s
  }

  /** Surrounding whitespace removed from both ends of `s`, as `str.strip` does (app.py:80). */
  function Strip(s: string): (r: string)
    ensures |r| <= |s|
    ensures r == [] || (!IsSpace(r[0]) && !IsSpace(r[|r| - 1]))
  {
    StripLeftSuffix(s);
    StripRightPrefix(StripLeft(s));
    var l := StripLeft(s);
    var r := StripRight(l);
    assert r != [] ==> r[0] == l[0];
    r
  }

  /** Stripping the start keeps the longest suffix that does not start with whitespace. */
  lemma {:induction false} StripLeftSuffix(s: string)
    ensures var r := StripLeft(s);
      |r| <= |s| && r == s[|s| - |r|..] &&
      (forall k :: 0 <= k < |s| - |r| ==> IsSpace(s[k])) &&
      (r == [] || !IsSpace(r[0]))
  {
    if s != [] && IsSpace(s[0]) {
      StripLeftSuffix(s[1..]);
      var r := StripLeft(s);
      assert forall k :: 1 <= k < |s| ==> s[1..][k - 1] == s[k];
      assert s[1..][|s| - 1 - |r|..] == s[|s| - |r|..];
    }
  }

  /** Stripping the end keeps the longest prefix that does not end with whitespace. */
  lemma {:induction false} StripRightPrefix(s: string)
    ensures var r := StripRight(s);
      |r| <= |s| && r == s[..|r|] &&
      (forall k :: |r| <= k < |s| ==> IsSpace(s[k])) &&
      (r == [] || !IsSpace(r[|r| - 1]))
  {
    if s != [] && IsSpace(s[|s| - 1]) {
      var n := |s| - 1;
      StripRightPrefix(s[..n]);
      var r := StripRight(s);
      assert forall k :: 0 <= k < n ==> s[..n][k] == s[k];
      assert s[..n][..|r|] == s[..|r|];
    }
  }

  /** A stripped label has no surrounding whitespace, so stripping it again changes nothing. */
  lemma StripIdempotent(s: string)
    ensures Strip(Strip(s)) == Strip(s)
  {
    var t := Strip(s);
    StripLeftSuffix(t);
    assert StripLeft(t) == t;
    StripRightPrefix(t);
  }

  /** The category a row belongs to once loaded: the fixed label, stripped. */
  function Label(r: Row): string
  {
    Strip(FixLabel(r.materia))
  }

  /** The category of every row, in catalog order. */
  function Labels(rows: seq<Row>): seq<string>
  {
    seq(|rows|, i requires 0 <= i < |rows| => Label(rows[i]))
  }

  /** The fixed but UNstripped label of every row: what the source groups the weights by. */
  function RawLabels(rows: seq<Row>): seq<string>
  {
    seq(|rows|, i requires 0 <= i < |rows| => FixLabel(rows[i].materia))
  }

  /** The item name of every row, in catalog order. */
  function Items(rows: seq<Row>): seq<string>
  {
    seq(|rows|, i requires 0 <= i < |rows| => rows[i].item)
  }

  /** The weight cell of every row, in catalog order. */
  function Weights(rows: seq<Row>): seq<Option<real>>
  {
    seq(|rows|, i requires 0 <= i < |rows| => rows[i].weight)
  }

  // ------------------------------------------------------------------------
  // ORDER_MAT: categories in first-appearance order

  /** No element occurs twice. */
  predicate NoDuplicates(s: seq<string>)
  {
    forall i, j :: 0 <= i < j < |s| ==> s[i] != s[j]
  }

  /** The distinct elements of `s`, each where it first appears. */
  function FirstAppearance(s: seq<string>): (d: seq<string>)
    ensures forall x :: x in d <==> x in s
    ensures NoDuplicates(d)
  {
    if s == [] then []
    else
      var d := FirstAppearance(s[..|s| - 1]);
      var x := s[|s| - 1];
      assert forall y :: y in s <==> y in s[..|s| - 1] || y == x;
      if x in d then d else d + [x]
  }

  /** Appending to a sequence does not move the first occurrence of what was already there. */
  lemma IndexOfSnoc(s: seq<string>, y: string, x: string)
    requires x in s
    ensures IndexOf(s + [y], x) == IndexOf(s, x)
  {
    var k := IndexOf(s, x);
    assert (s + [y])[k] == x;
    assert forall j :: 0 <= j < |s| ==> (s + [y])[j] == s[j];
  }

  /** A new element appended at the end first occurs at the end. */
  lemma IndexOfNew(s: seq<string>, x: string)
    requires x !in s
    ensures IndexOf(s + [x], x) == |s|
  {
    assert forall j :: 0 <= j < |s| ==> (s + [x])[j] == s[j];
  }

  /** Every element of `d` occurs in `s`, and the elements of `d` first occur in `s` in the order of `d`. */
  predicate OrderedBy(d: seq<string>, s: seq<string>)
  {
    (forall k :: 0 <= k < |d| ==> d[k] in s) &&
    forall i, j :: 0 <= i < j < |d| ==> IndexOf(s, d[i]) < IndexOf(s, d[j])
  }

  /** Appending to the catalog keeps an order of the categories seen so far. */
  lemma OrderedBySnoc(d: seq<string>, p: seq<string>, x: string)
    requires OrderedBy(d, p)
    ensures OrderedBy(d, p + [x])
  {
    forall k | 0 <= k < |d| ensures IndexOf(p + [x], d[k]) == IndexOf(p, d[k]) {
      IndexOfSnoc(p, x, d[k]);
    }
  }

  /** A category seen for the first time goes after every category seen before. */
  lemma OrderedByNew(d: seq<string>, p: seq<string>, x: string)
    requires OrderedBy(d, p + [x]) && OrderedBy(d, p) && x !in p
    ensures OrderedBy(d + [x], p + [x])
  {
    IndexOfNew(p, x);
    var e := d + [x];
    forall i, j | 0 <= i < j < |e|
      ensures IndexOf(p + [x], e[i]) < IndexOf(p + [x], e[j])
    {
      assert e[i] == d[i];
      if j < |d| {
        assert e[j] == d[j];
      } else {
        assert IndexOf(p + [x], d[i]) < |p + [x]|;
        IndexOfSnoc(p, x, d[i]);
      }
    }
  }

  /**
   * The categories are listed in the order in which they first appear: of any
   * two listed categories, the earlier one occurs earlier in the catalog.
   */
  lemma {:induction false} FirstAppearanceOrdered(s: seq<string>)
    ensures OrderedBy(FirstAppearance(s), s)
  {
    if s != [] {
      var p := s[..|s| - 1];
      var x := s[|s| - 1];
      assert s == p + [x];
      FirstAppearanceOrdered(p);
      var dp := FirstAppearance(p);
      OrderedBySnoc(dp, p, x);
      if x !in p {
        OrderedByNew(dp, p, x);
      }
    }
  }

  /**
   * The loop that builds `ORDER_MAT`: walk the rows' categories, append each
   * one not seen before.
   */
  method BuildOrder(labels: seq<string>) returns (order: seq<string>)
    ensures order == FirstAppearance(labels)
  {
    order := [];
    var seen: set<string> := {};
    for i := 0 to |labels|
      invariant order == FirstAppearance(labels[..i])
      invariant forall x :: x in seen <==> x in order
    {
      var m := labels[i];
      assert labels[..i + 1][..i] == labels[..i];
      if m !in seen {
        order := order + [m];
        seen := seen + {m};
      }
    }
    assert labels[..|labels|] == labels;
  }

  // ------------------------------------------------------------------------
  // MAT_TO_ITEMS: each category's items in catalog order

  /** The items of the rows in category `m`, in catalog order. */
  function ItemsOf(labels: seq<string>, items: seq<string>, m: string): (r: seq<string>)
    requires |labels| == |items|
    ensures |r| <= |items|
  {
    if labels == [] then []
    else
      var n := |labels| - 1;
      ItemsOf(labels[..n], items[..n], m) + (if labels[n] == m then [items[n]] else [])
  }

  /** A category lists exactly the items of the rows in it. */
  lemma {:induction false} ItemsOfMembers(labels: seq<string>, items: seq<string>, m: string, x: string)
    requires |labels| == |items|
    ensures x in ItemsOf(labels, items, m) <==> exists i :: 0 <= i < |labels| && items[i] == x && labels[i] == m
  {
    if labels != [] {
      var n := |labels| - 1;
      var ls, its := labels[..n], items[..n];
      ItemsOfMembers(ls, its, m, x);
      if x in ItemsOf(ls, its, m) {
        var i :| 0 <= i < n && its[i] == x && ls[i] == m;
        assert items[i] == x && labels[i] == m;
      }
      if exists i :: 0 <= i < |labels| && items[i] == x && labels[i] == m {
        var i :| 0 <= i < |labels| && items[i] == x && labels[i] == m;
        if i < n {
          assert its[i] == x && ls[i] == m;
        }
      }
    }
  }

  /** A category's item list is empty exactly when no row has that category. */
  lemma ItemsOfEmpty(labels: seq<string>, items: seq<string>, m: string)
    requires |labels| == |items|
    ensures ItemsOf(labels, items, m) == [] <==> m !in labels
  {
    ItemsOfCount(labels, items, m);
    assert m in labels <==> m in multiset(labels);
  }

  /** A category lists one item per row of that category. */
  lemma {:induction false} ItemsOfCount(labels: seq<string>, items: seq<string>, m: string)
    requires |labels| == |items|
    ensures |ItemsOf(labels, items, m)| == multiset(labels)[m]
  {
    if labels != [] {
      var n := |labels| - 1;
      var ls := labels[..n];
      ItemsOfCount(ls, items[..n], m);
      assert labels == ls + [labels[n]];
      assert multiset(labels)[m] == multiset(ls)[m] + (if labels[n] == m then 1 else 0);
    }
  }

  /** The item list of category `m`, read as the empty list when `m` has none (app.py:81). */
  function Lookup(mti: map<string, seq<string>>, m: string): seq<string>
  {
    if m in mti then mti[m] else []
  }

  /** Taking one more row adds its item to its own category and to no other. */
  lemma ItemsOfStep(labels: seq<string>, items: seq<string>, i: nat, m: string)
    requires |labels| == |items| && i < |labels|
    ensures ItemsOf(labels[..i + 1], items[..i + 1], m)
         == ItemsOf(labels[..i], items[..i], m) + (if labels[i] == m then [items[i]] else [])
  {
    assert labels[..i + 1][..i] == labels[..i];
    assert items[..i + 1][..i] == items[..i];
  }

  /** The loop that builds `MAT_TO_ITEMS`: append each row's item to its category's list. */
  method BuildMatToItems(labels: seq<string>, items: seq<string>) returns (mti: map<string, seq<string>>)
    requires |labels| == |items|
    ensures forall m :: m in mti <==> m in labels
    ensures forall m :: Lookup(mti, m) == ItemsOf(labels, items, m)
  {
    mti := map[];
    for i := 0 to |labels|
      invariant forall m :: m in mti <==> m in labels[..i]
      invariant forall m :: Lookup(mti, m) == ItemsOf(labels[..i], items[..i], m)
    {
      var m := labels[i];
      var cur := if m in mti then mti[m] else [];
      ghost var prev := mti;
      mti := mti[m := cur + [items[i]]];
      assert labels[..i + 1] == labels[..i] + [m];
      forall m' ensures Lookup(mti, m') == ItemsOf(labels[..i + 1], items[..i + 1], m') {
        ItemsOfStep(labels, items, i, m');
        assert Lookup(prev, m') == ItemsOf(labels[..i], items[..i], m');
      }
    }
    assert labels[..|labels|] == labels;
    assert items[..|items|] == items;
  }

  // ------------------------------------------------------------------------
  // ITEM_TO_MAT: the category of each item

  /**
   * The category of each item, a later row overriding an earlier one for the
   * same item (app.py:80): every item of the catalog maps to one of its
   * categories.
   */
  function ItemToMat(items: seq<string>, labels: seq<string>): (itm: map<string, string>)
    requires |items| == |labels|
    ensures forall x :: x in itm <==> x in items
    ensures forall x :: x in itm ==> itm[x] in labels
  {
    if items == [] then map[]
    else
      var n := |items| - 1;
      assert items == items[..n] + [items[n]];
      assert labels == labels[..n] + [labels[n]];
      ItemToMat(items[..n], labels[..n])[items[n] := labels[n]]
  }

  /** When an item occurs in several rows, the last row decides its category. */
  lemma {:induction false} ItemToMatLastWins(items: seq<string>, labels: seq<string>, i: nat)
    requires |items| == |labels| && i < |items|
    requires forall j :: i < j < |items| ==> items[j] != items[i]
    ensures ItemToMat(items, labels)[items[i]] == labels[i]
  {
    var n := |items| - 1;
    if i < n {
      ItemToMatLastWins(items[..n], labels[..n], i);
    }
  }

  /** Every item's category is listed in `ORDER_MAT`. */
  lemma ItemCategoryListed(items: seq<string>, labels: seq<string>, x: string)
    requires |items| == |labels|
    requires x in ItemToMat(items, labels)
    ensures ItemToMat(items, labels)[x] in FirstAppearance(labels)
  {
  }

  // ------------------------------------------------------------------------
  // MAT_PESO: the first numeric weight of each category

  /** The first number in a column of cells, `None` when there is none (app.py:97-99). */
  function FirstSome(ws: seq<Option<real>>): (r: Option<real>)
    ensures r.None? <==> forall k :: 0 <= k < |ws| ==> ws[k].None?
    ensures r.Some? ==> exists k :: 0 <= k < |ws| && ws[k] == r && forall j :: 0 <= j < k ==> ws[j].None?
  {
    if ws == [] then None
    else if ws[0].Some? then ws[0]
    else
      var r := FirstSome(ws[1..]);
      assert forall k :: 1 <= k < |ws| ==> ws[k] == ws[1..][k - 1];
      r
  }

  /** The weight cells of the rows whose key is `m`, in catalog order. */
  function WeightsUnder(keys: seq<string>, ws: seq<Option<real>>, m: string): (r: seq<Option<real>>)
    requires |keys| == |ws|
  {
    if keys == [] then []
    else
      var n := |keys| - 1;
      WeightsUnder(keys[..n], ws[..n], m) + (if keys[n] == m then [ws[n]] else [])
  }

  /** No cell of `r` is a number. */
  predicate AllNone(r: seq<Option<real>>)
  {
    forall k :: 0 <= k < |r| ==> r[k].None?
  }

  /** No row whose key is `m` has a numeric weight cell. */
  predicate NoneUnder(keys: seq<string>, ws: seq<Option<real>>, m: string)
    requires |keys| == |ws|
  {
    forall i :: 0 <= i < |keys| && keys[i] == m ==> ws[i].None?
  }

  /** A group has no number exactly when none of its rows has one. */
  lemma {:induction false} WeightsUnderNone(keys: seq<string>, ws: seq<Option<real>>, m: string)
    requires |keys| == |ws|
    ensures AllNone(WeightsUnder(keys, ws, m)) <==> NoneUnder(keys, ws, m)
  {
    if keys != [] {
      var n := |keys| - 1;
      var ks, vs := keys[..n], ws[..n];
      WeightsUnderNone(ks, vs, m);
      var r0 := WeightsUnder(ks, vs, m);
      var r := WeightsUnder(keys, ws, m);
      var last := if keys[n] == m then [ws[n]] else [];
      assert r == r0 + last;
      assert AllNone(r) <==> AllNone(r0) && AllNone(last) by {
        assert forall k :: 0 <= k < |r0| ==> r[k] == r0[k];
        assert forall k :: 0 <= k < |last| ==> r[|r0| + k] == last[k];
      }
      assert NoneUnder(keys, ws, m) <==> NoneUnder(ks, vs, m) && (keys[n] == m ==> ws[n].None?) by {
        assert forall i :: 0 <= i < n ==> ks[i] == keys[i] && vs[i] == ws[i];
      }
      if keys[n] == m {
        assert last == [ws[n]] && last[0] == ws[n];
        assert AllNone(last) <==> ws[n].None?;
      } else {
        assert last == [];
      }
    }
  }

  /** The first number of a concatenation: the first of the front part, else of the back part. */
  lemma {:induction false} FirstSomeAppend(a: seq<Option<real>>, b: seq<Option<real>>)
    ensures FirstSome(a + b) == if FirstSome(a).Some? then FirstSome(a) else FirstSome(b)
  {
    if a == [] {
      assert a + b == b;
    } else {
      assert (a + b)[0] == a[0];
      if a[0].None? {
        assert (a + b)[1..] == a[1..] + b;
        FirstSomeAppend(a[1..], b);
      }
    }
  }

  /** The first number among a group's cells is the weight of the group's first row that has one. */
  lemma {:induction false} WeightsUnderFirst(keys: seq<string>, ws: seq<Option<real>>, m: string)
    requires |keys| == |ws|
    ensures var f := FirstSome(WeightsUnder(keys, ws, m));
      f.Some? ==> exists i :: 0 <= i < |keys| && keys[i] == m && ws[i] == f &&
                             (forall j :: 0 <= j < i && keys[j] == m ==> ws[j].None?)
  {
    if keys != [] {
      var n := |keys| - 1;
      var ks, vs := keys[..n], ws[..n];
      var r0 := WeightsUnder(ks, vs, m);
      var last := if keys[n] == m then [ws[n]] else [];
      var f := FirstSome(WeightsUnder(keys, ws, m));
      assert WeightsUnder(keys, ws, m) == r0 + last;
      FirstSomeAppend(r0, last);
      assert forall i :: 0 <= i < n ==> ks[i] == keys[i] && vs[i] == ws[i];
      if FirstSome(r0).Some? {
        WeightsUnderFirst(ks, vs, m);
        var i :| 0 <= i < n && ks[i] == m && vs[i] == f &&
                 (forall j :: 0 <= j < i && ks[j] == m ==> vs[j].None?);
        assert keys[i] == m && ws[i] == f;
      } else if f.Some? {
        WeightsUnderNone(ks, vs, m);
        assert keys[n] == m && ws[n] == f;
      }
    }
  }

  /**
   * The weights grouped by key (app.py:101): each key present maps to the
   * first numeric weight among its rows.
   */
  function GroupWeights(keys: seq<string>, ws: seq<Option<real>>): (g: map<string, Option<real>>)
    requires |keys| == |ws|
    ensures forall m :: m in g <==> m in keys
  {
    map m | m in keys :: FirstSome(WeightsUnder(keys, ws, m))
  }

  /** A category has a weight exactly when one of its rows has a numeric weight cell. */
  lemma GroupWeightsPresent(keys: seq<string>, ws: seq<Option<real>>, m: string)
    requires |keys| == |ws| && m in keys
    ensures GroupWeights(keys, ws)[m].None? <==> forall i :: 0 <= i < |keys| && keys[i] == m ==> ws[i].None?
  {
    WeightsUnderNone(keys, ws, m);
    assert GroupWeights(keys, ws)[m] == FirstSome(WeightsUnder(keys, ws, m));
  }

  /**
   * A category's weight is the weight of its FIRST row, in catalog order,
   * whose weight cell is a number.
   */
  lemma GroupWeightsFirst(keys: seq<string>, ws: seq<Option<real>>, m: string)
    requires |keys| == |ws| && m in keys
    ensures var w := GroupWeights(keys, ws)[m];
      w.Some? ==> exists i :: 0 <= i < |keys| && keys[i] == m && ws[i] == w &&
                             (forall j :: 0 <= j < i && keys[j] == m ==> ws[j].None?)
  {
    WeightsUnderFirst(keys, ws, m);
    assert GroupWeights(keys, ws)[m] == FirstSome(WeightsUnder(keys, ws, m));
  }

  /**
   * `MAT_PESO` as written: grouped by the unstripped label, while every other
   * index and the scores use the stripped one.
   */
  function MatPesoAsWritten(rows: seq<Row>): (w: map<string, Option<real>>)
    ensures forall m :: m in w <==> m in RawLabels(rows)
  {
    GroupWeights(RawLabels(rows), Weights(rows))
  }

  /** `MAT_PESO` grouped by the same (stripped) label as the rest of the catalog. */
  function MatPeso(rows: seq<Row>): (w: map<string, Option<real>>)
    ensures forall m :: m in w <==> m in Labels(rows)
  {
    GroupWeights(Labels(rows), Weights(rows))
  }

  /**
   * Grouped by the loaded label, the weighted categories are exactly the
   * categories of `ORDER_MAT`, so walking `ORDER_MAT` visits every key of
   * `MAT_PESO` once.
   */
  lemma MatPesoCoversOrder(rows: seq<Row>)
    ensures forall m :: m in MatPeso(rows) <==> m in FirstAppearance(Labels(rows))
  {
  }

  /**
   * The two groupings disagree on any category whose rows all carry a label
   * with surrounding whitespace: the category is listed (by its stripped
   * label) in `MAT_PESO` grouped by label, but missing from `MAT_PESO` as
   * written, so its weight is never found.
   */
  lemma PaddedCategoryUnweighted(rows: seq<Row>, m: string)
    requires m in Labels(rows)
    requires forall i :: 0 <= i < |rows| ==> FixLabel(rows[i].materia) != m
    ensures m !in MatPesoAsWritten(rows)
    ensures m in MatPeso(rows)
  {
    assert forall i :: 0 <= i < |rows| ==> RawLabels(rows)[i] != m;
  }

  /** Stripping removes the trailing blank of `"A "`. */
  lemma StripTrailingBlank()
    ensures Strip("A ") == "A"
  {
    assert StripLeft("A ") == "A ";
    assert StripRight("A ") == StripRight("A");
  }

  /** Stripping leaves `"B"` alone. */
  lemma StripUnpadded()
    ensures Strip("B") == "B"
  {
    assert StripLeft("B") == "B";
  }

  /** Two categories, the first written with a trailing blank in the data. */
  function PaddedCatalog(): seq<Row>
  {
    [Row(1, "x", "A ", Some(90.0)), Row(2, "y", "B", Some(10.0))]
  }

  /** The loaded categories of that catalog are `A` and `B`. */
  lemma PaddedLabels()
    ensures Labels(PaddedCatalog()) == ["A", "B"]
  {
    var rows := PaddedCatalog();
    assert Label(rows[0]) == "A" by {
      FixShortLabel("A ");
      StripTrailingBlank();
    }
    assert Label(rows[1]) == "B" by {
      FixShortLabel("B");
      StripUnpadded();
    }
  }

  /** Grouped by the loaded labels, each category of that catalog gets its own row's weight. */
  lemma PaddedGroups(first: string)
    requires first != "B"
    ensures WeightsUnder([first, "B"], [Some(90.0), Some(10.0)], first) == [Some(90.0)]
    ensures WeightsUnder([first, "B"], [Some(90.0), Some(10.0)], "B") == [Some(10.0)]
  {
    var ls: seq<string> := [first, "B"];
    var ws: seq<Option<real>> := [Some(90.0), Some(10.0)];
    assert ls[..1] == [first] && ws[..1] == [Some(90.0)];
    assert ls[..1][..0] == [] && ws[..1][..0] == [];
    assert WeightsUnder(ls[..1], ws[..1], first) == [Some(90.0)];
    assert WeightsUnder(ls[..1], ws[..1], "B") == [];
  }

  /** The unstripped labels of that catalog are `"A "` and `B`. */
  lemma PaddedRawLabels()
    ensures RawLabels(PaddedCatalog()) == ["A ", "B"]
  {
    FixShortLabel("A ");
    FixShortLabel("B");
  }

  /** Grouped by the loaded labels, that catalog weighs `A` at 90 and `B` at 10. */
  lemma PaddedWeights()
    ensures "A" in MatPeso(PaddedCatalog()) && MatPeso(PaddedCatalog())["A"] == Some(90.0)
    ensures "B" in MatPeso(PaddedCatalog()) && MatPeso(PaddedCatalog())["B"] == Some(10.0)
  {
    var rows := PaddedCatalog();
    PaddedLabels();
    var ws: seq<Option<real>> := [Some(90.0), Some(10.0)];
    assert Weights(rows) == ws;
    assert MatPeso(rows) == GroupWeights(["A", "B"], ws);
    PaddedGroups("A");
    assert FirstSome([Some(90.0)]) == Some(90.0);
    assert FirstSome([Some(10.0)]) == Some(10.0);
  }

  /**
   * As written, the same catalog has no weight under `A` (its key is `"A "`),
   * and weighs `B` at 10.
   */
  lemma PaddedLabelLosesWeight()
    ensures "A" in Labels(PaddedCatalog()) && "A" !in MatPesoAsWritten(PaddedCatalog())
    ensures "B" in MatPesoAsWritten(PaddedCatalog()) && MatPesoAsWritten(PaddedCatalog())["B"] == Some(10.0)
  {
    var rows := PaddedCatalog();
    PaddedLabels();
    PaddedRawLabels();
    var ws: seq<Option<real>> := [Some(90.0), Some(10.0)];
    assert Weights(rows) == ws;
    assert MatPesoAsWritten(rows) == GroupWeights(["A ", "B"], ws);
    assert "A" !in ["A ", "B"];
    PaddedGroups("A ");
    assert FirstSome([Some(10.0)]) == Some(10.0);
  }

  // ------------------------------------------------------------------------
  // The loaded catalog

  /** The indexes computed once when the catalog is loaded. */
  datatype CatalogIndex = CatalogIndex(
    itemToMat: map<string, string>,
    matToItems: map<string, seq<string>>,
    order: seq<string>,
    matPeso: map<string, Option<real>>)

  /** Build every index of the catalog, as the module-level code does at start-up. */
  method LoadIndex(rows: seq<Row>) returns (cat: CatalogIndex)
    ensures cat.itemToMat == ItemToMat(Items(rows), Labels(rows))
    ensures forall m :: m in cat.matToItems <==> m in Labels(rows)
    ensures forall m :: Lookup(cat.matToItems, m) == ItemsOf(Labels(rows), Items(rows), m)
    ensures cat.order == FirstAppearance(Labels(rows))
    ensures cat.matPeso == MatPeso(rows)
  {
    var labels := Labels(rows);
    var items := Items(rows);
    var mti := BuildMatToItems(labels, items);
    var order := BuildOrder(labels);
    cat := CatalogIndex(ItemToMat(items, labels), mti, order, MatPeso(rows));
  }
}

=== FILE: form.dfy ===
/**
 * The evaluation form of one item (app.py:168-246): the radios that are
 * shown depending on earlier answers, their pre-selection from a previously
 * saved record, the gate that decides whether the record may be saved, and
 * the session's answer store.
 *
 * A radio always returns one of its options (the pre-selected one until the
 * user picks another), so the form is modelled by the value each radio holds.
 */
module Form {
  import opened Wrappers
  import opened Scoring
  import opened Seqs

  // ------------------------------------------------------------------------
  // Radio pre-selection

  /**
   * `_safe_idx`: the position of `value` among `options`, or `default` when
   * there is no value or it is not one of the options.
   */
  function SafeIdx<T(==)>(options: seq<T>, value: Option<T>, default: nat): (i: nat)
    ensures value.Some? && value.value in options ==> i < |options| && options[i] == value.value
    ensures value.Some? && value.value in options ==> forall j :: 0 <= j < i ==> options[j] != value.value
    ensures !(value.Some? && value.value in options) ==> i == default
  {
    if value.Some? && value.value in options then IndexOf(options, value.value) else default
  }

  /** The options of the scenario radio, in display order. */
  const ScenarioOptions: seq<Scenario> := [1, 2, 3, 4, 5]
  /** The options of the availability and currency radios. */
  const YesNoOptions: seq<GenAnswer> := [Yes, No]
  /** The options of the completeness radio. */
  const CompletenessOptions: seq<GenAnswer> := [Yes, No, CannotDetermine]
  /** The options of every specific-indicator radio. */
  const SpecOptions: seq<SpecAnswer> := [SpecYes, SpecNo, NotApplicable]

  // ------------------------------------------------------------------------
  // The form

  /**
   * What the radios of the form hold: the scenario, the three general
   * answers and one answer per specific indicator of the item. Radios that
   * are not shown still have a value; the form ignores it.
   */
  datatype Entry = Entry(esc: Scenario, disp: GenAnswer, act: GenAnswer, comp: GenAnswer, spec: seq<SpecAnswer>)

  /** The availability and currency radios offer only "Sí" and "No". */
  predicate OnOffer(e: Entry)
  {
    e.disp in YesNoOptions && e.act in YesNoOptions
  }

  /**
   * The radios pre-selected for an item with `n` specific indicators, from
   * the previously saved record when there is one: each radio shows the saved
   * value when it is one of its options, and its first option otherwise.
   */
  function Prefill(prev: Option<ItemR>, n: nat): (e: Entry)
    ensures OnOffer(e) && |e.spec| == n
  {
    var esc := ScenarioOptions[SafeIdx(ScenarioOptions, if prev.Some? then Some(prev.value.scenario) else None, 0)];
    var disp := YesNoOptions[SafeIdx(YesNoOptions, if prev.Some? then prev.value.gen.0 else None, 0)];
    var act := YesNoOptions[SafeIdx(YesNoOptions, if prev.Some? then prev.value.gen.1 else None, 0)];
    var comp := CompletenessOptions[SafeIdx(CompletenessOptions, if prev.Some? then prev.value.gen.2 else None, 0)];
    Entry(esc, disp, act, comp, seq(n, i requires 0 <= i < n => SpecPrefill(prev, i)))
  }

  /**
   * The pre-selected answer of the `i`-th specific indicator: the saved one
   * when the saved record has that many, else the first option.
   */
  function SpecPrefill(prev: Option<ItemR>, i: nat): (a: SpecAnswer)
    ensures prev.Some? && i < |prev.value.spec| ==> a == prev.value.spec[i]
    ensures !(prev.Some? && i < |prev.value.spec|) ==> a == SpecYes
  {
    if prev.Some? && i < |prev.value.spec| then
      var a := prev.value.spec[i];
      assert SpecOptions[0] == SpecYes && SpecOptions[1] == SpecNo && SpecOptions[2] == NotApplicable;
      assert a.SpecYes? || a.SpecNo? || a.NotApplicable?;
      SpecOptions[IndexOf(SpecOptions, a)]
    else SpecOptions[0]
  }

  /**
   * The record the form builds from its radios: only scenario 1 asks the
   * general questions, currency is asked only after availability "Sí",
   * completeness only after currency "Sí", and the specific indicators only
   * once all three are answered.
   */
  function FormRecord(e: Entry): (r: ItemR)
    requires OnOffer(e)
    ensures r.scenario == e.esc
    ensures r.scenario != 1 ==> r.gen == (None, None, None) && r.spec == []
    ensures e.esc == 1 && e.disp == No ==> r.gen == (Some(No), None, None) && r.spec == []
    ensures e.esc == 1 && e.disp == Yes && e.act == No ==> r.gen == (Some(Yes), Some(No), None) && r.spec == []
    ensures e.esc == 1 && e.disp == Yes && e.act == Yes ==> r.gen == (Some(Yes), Some(Yes), Some(e.comp)) && r.spec == e.spec
  {
    if e.esc != 1 then ItemR(e.esc, (None, None, None), [])
    else if e.disp == No then ItemR(1, (Some(No), None, None), [])
    else if e.act == No then ItemR(1, (Some(Yes), Some(No), None), [])
    else ItemR(1, (Some(Yes), Some(Yes), Some(e.comp)), e.spec)
  }

  // ------------------------------------------------------------------------
  // The save gate

  /**
   * How many general questions the form shows (app.py:199-215): none outside
   * scenario 1; there, availability, then currency once availability is
   * "Sí", then completeness once currency is "Sí".
   */
  function AskedCount(esc: Scenario, disp: Option<GenAnswer>, act: Option<GenAnswer>): (n: nat)
    ensures n <= 3
  {
    if esc != 1 then 0
    else if disp != Some(Yes) then 1
    else if act != Some(Yes) then 2
    else 3
  }

  /** Every general question the form shows has an answer. */
  predicate AskedAnswered(esc: Scenario, disp: Option<GenAnswer>, act: Option<GenAnswer>, comp: Option<GenAnswer>)
  {
    var g := GenList((disp, act, comp));
    forall k :: 0 <= k < AskedCount(esc, disp, act) ==> g[k].Some?
  }

  /** An answer the availability and currency radios can hold: "Sí", "No", or none. */
  predicate YesNo(a: Option<GenAnswer>)
  {
    a != Some(CannotDetermine)
  }

  /**
   * The save gate (app.py:227-239): outside scenario 1 anything may be saved;
   * in scenario 1 availability must be answered, and unless it is "No"
   * currency must be answered, and unless that is "No" completeness must be
   * answered. It never lets a record through with a shown question unanswered.
   */
  function ValidInputs(esc: Scenario, disp: Option<GenAnswer>, act: Option<GenAnswer>, comp: Option<GenAnswer>): (ok: bool)
    ensures ok ==> AskedAnswered(esc, disp, act, comp)
  {
    var g := GenList((disp, act, comp));
    assert g[0] == disp && g[1] == act && g[2] == comp;
    if esc != 1 then true
    else if disp.None? then false
    else if disp == Some(No) then true
    else if act.None? then false
    else if act == Some(No) then true
    else comp.Some?
  }

  /**
   * For the answers the radios can give, the gate accepts a record exactly
   * when every general question the form shows has an answer.
   */
  lemma GateMeansAskedAnswered(esc: Scenario, disp: Option<GenAnswer>, act: Option<GenAnswer>, comp: Option<GenAnswer>)
    requires YesNo(disp) && YesNo(act)
    ensures ValidInputs(esc, disp, act, comp) <==> AskedAnswered(esc, disp, act, comp)
  {
    var g := GenList((disp, act, comp));
    assert g[0] == disp && g[1] == act && g[2] == comp;
    if esc == 1 && AskedAnswered(esc, disp, act, comp) {
      assert g[0].Some?;
      if disp == Some(Yes) {
        assert g[1].Some?;
        if act == Some(Yes) {
          assert g[2].Some?;
        } else {
          assert act.Some? && act.value != Yes && act.value != CannotDetermine;
        }
      } else {
        assert disp.Some? && disp.value != Yes && disp.value != CannotDetermine;
      }
    }
  }

  /** The record the form builds answers exactly the general questions the form shows. */
  lemma FormAnswersAsked(e: Entry)
    requires OnOffer(e)
    ensures var r := FormRecord(e); var g := GenList(r.gen);
      forall k :: 0 <= k < 3 ==> (g[k].Some? <==> k < AskedCount(e.esc, Some(e.disp), Some(e.act)))
  {
    var r := FormRecord(e);
    var g := GenList(r.gen);
    assert g[0] == r.gen.0 && g[1] == r.gen.1 && g[2] == r.gen.2;
    assert YesNoOptions == [Yes, No];
  }

  /** Each option list holds every value of its type. */
  lemma OptionsComplete(esc: Scenario, c: GenAnswer)
    ensures esc in ScenarioOptions
    ensures c in CompletenessOptions
  {
    assert ScenarioOptions[esc - 1] == esc;
    assert CompletenessOptions[0] == Yes && CompletenessOptions[1] == No && CompletenessOptions[2] == CannotDetermine;
  }

  /**
   * Reopening a saved item shows the saved answers: building the record
   * again from the pre-selected radios, without touching any, gives back the
   * saved record.
   */
  lemma ReopenReproduces(e: Entry, n: nat)
    requires OnOffer(e) && |e.spec| == n
    ensures FormRecord(Prefill(Some(FormRecord(e)), n)) == FormRecord(e)
  {
    var r := FormRecord(e);
    var p := Prefill(Some(r), n);
    OptionsComplete(r.scenario, e.comp);
    assert p.esc == r.scenario;
    assert YesNoOptions[0] == Yes && YesNoOptions[1] == No;
    if r.scenario == 1 && e.disp == Yes && e.act == Yes {
      assert p.disp == Yes && p.act == Yes && p.comp == e.comp;
      assert p.spec == e.spec;
    }
  }

  /** A fresh item shows scenario 1 with every answer "Sí". */
  lemma FreshDefaults(n: nat)
    ensures Prefill(None, n) == Entry(1, Yes, Yes, Yes, seq(n, _ => SpecYes))
  {
    assert ScenarioOptions[0] == 1 && YesNoOptions[0] == Yes && CompletenessOptions[0] == Yes;
  }

  /** Saving a fresh item without touching any radio records full compliance (100.0). */
  lemma UntouchedFormFullyCompliant(n: nat)
    ensures ScoreItem(FormRecord(Prefill(None, n))) == Some(1000)
  {
    FreshDefaults(n);
    var spec := seq(n, _ => SpecYes);
    AllYesScore(spec);
    SpecificScoreExtremes(spec);
    BlendBounds(100, 100);
    assert Blend(100, 100) == RoundDiv(4000, 4);
  }

  /** Every record the form builds passes the gate: its radios always hold a value. */
  lemma FormPassesGate(e: Entry)
    requires OnOffer(e)
    ensures var r := FormRecord(e); ValidInputs(r.scenario, r.gen.0, r.gen.1, r.gen.2)
  {
  }

  /**
   * Which records built by the form are scored: scenarios 4 and 5, and
   * scenario 1 only when availability and currency are both "Sí". A scenario-1
   * record stopped by a "No" passes the gate but is excluded from the scores.
   */
  lemma FormScoredIff(e: Entry)
    requires OnOffer(e)
    ensures ScoreItem(FormRecord(e)).Some? <==>
      e.esc == 4 || e.esc == 5 || (e.esc == 1 && e.disp == Yes && e.act == Yes)
  {
    ScenarioMapping(FormRecord(e));
  }

  /** The gate's cases, one record of each shape. */
  lemma GateCases()
    ensures ValidInputs(2, None, None, None)
    ensures !ValidInputs(1, None, None, None)
    ensures ValidInputs(1, Some(No), None, None)
    ensures !ValidInputs(1, Some(Yes), None, None)
    ensures ValidInputs(1, Some(Yes), Some(No), None)
    ensures !ValidInputs(1, Some(Yes), Some(Yes), None)
    ensures ValidInputs(1, Some(Yes), Some(Yes), Some(CannotDetermine))
  {
  }

  /** Availability "No" passes the gate, yet the record is not scored. */
  lemma UnavailableSavedButExcluded()
    ensures ValidInputs(1, Some(No), None, None)
    ensures ScoreItem(ItemR(1, (Some(No), None, None), [])) == None
  {
    ScenarioMapping(ItemR(1, (Some(No), None, None), []));
  }

  // ------------------------------------------------------------------------
  // The session's answers

  /** A saved record as the gate requires it. */
  predicate Gated(r: ItemR)
  {
    ValidInputs(r.scenario, r.gen.0, r.gen.1, r.gen.2)
  }

  /** The session's answer store (app.py:109): the saved record of every item, by item name. */
  class Session {
    var answers: map<string, ItemR>

    /** Every saved record passed the gate. */
    predicate Valid()
      reads this
    {
      forall it :: it in answers ==> Gated(answers[it])
    }

    /** A new session has no answers. */
    constructor()
      ensures answers == map[]
      ensures Valid()
    {
      answers := map[];
    }

    /** The record shown when item `it` is reopened, if one was saved (app.py:176). */
    function Previous(it: string): (prev: Option<ItemR>)
      reads this
      ensures prev.Some? <==> it in answers
      ensures prev.Some? ==> prev.value == answers[it]
    {
      if it in answers then Some(answers[it]) else None
    }

    /**
     * The "Guardar ítem" button: when the gate accepts the answers, store the
     * record under `it` (replacing an earlier one); otherwise change nothing.
     */
    method Save(it: string, esc: Scenario, disp: Option<GenAnswer>, act: Option<GenAnswer>, comp: Option<GenAnswer>, spec: seq<SpecAnswer>) returns (saved: bool)
      requires Valid()
      modifies this
      ensures Valid()
      ensures saved == ValidInputs(esc, disp, act, comp)
      ensures saved ==> answers == old(answers)[it := ItemR(esc, (disp, act, comp), spec)]
      ensures !saved ==> answers == old(answers)
    {
      saved := ValidInputs(esc, disp, act, comp);
      if saved {
        answers := answers[it := ItemR(esc, (disp, act, comp), spec)];
      }
    }

    /** Save what the form's radios hold; the gate always accepts it. */
    method SaveForm(it: string, e: Entry) returns (saved: bool)
      requires Valid() && OnOffer(e)
      modifies this
      ensures Valid()
      ensures saved
      ensures answers == old(answers)[it := FormRecord(e)]
    {
      var r := FormRecord(e);
      FormPassesGate(e);
      saved := Save(it, r.scenario, r.gen.0, r.gen.1, r.gen.2, r.spec);
    }
  }

  /**
   * Every stored record passed the gate, so a stored scenario-1 record whose
   * availability and currency are not "No" has all three general answers and
   * is scored.
   */
  lemma StoredScored(session: Session, it: string)
    requires session.Valid() && it in session.answers
    requires var r := session.answers[it]; r.scenario == 1 && r.gen.0 != Some(No) && r.gen.1 != Some(No)
    ensures ScoreItem(session.answers[it]).Some?
  {
    ScenarioMapping(session.answers[it]);
  }
}

=== FILE: scoring.dfy ===
/**
 * The item scorer: how one saved answer record becomes a compliance
 * percentage (app.py:107-145).
 *
 * Percentages are exact: a score is an integer number of TENTHS of a percent
 * (43.8 % is 438), and every rounding to one decimal in the source is `RoundDiv`
 * applied to ten times the exact fraction.
 */
module Scoring {
  import opened Wrappers

  /** The five scenario codes offered by the scenario radio. */
  type Scenario = s: int | 1 <= s <= 5 witness 1

  /** Answers to a general indicator: "Sí", "No", "No es posible determinarlo". */
  datatype GenAnswer = Yes | No | CannotDetermine

  /** Answers to a specific indicator: "Sí", "No", "No aplica". */
  datatype SpecAnswer = SpecYes | SpecNo | NotApplicable

  /** The general triple (availability, currency, completeness); unreached slots are `None`. */
  type General = (Option<GenAnswer>, Option<GenAnswer>, Option<GenAnswer>)

  /** One saved answer record: scenario, general triple and specific answers (app.py:107). */
  datatype ItemR = ItemR(scenario: Scenario, gen: General, spec: seq<SpecAnswer>)

  /** The general triple as the sequence the scorer iterates over. */
  function GenList(g: General): seq<Option<GenAnswer>>
  {
    [g.0, g.1, g.2]
  }

  /**
   * The score table of the general answers (app.py:112): "Sí" is full
   * compliance, "No" none, and an undeterminable answer a quarter.
   */
  function ValGen(a: GenAnswer): (v: int)
    ensures v == 100 <==> a == Yes
    ensures v == 0 <==> a == No
    ensures a == CannotDetermine ==> v == 25
  {
    match a
    case Yes => 100
    case No => 0
    case CannotDetermine => 25
  }

  // ------------------------------------------------------------------------
  // Rounding

  /**
   * Python's `round` applied to the exact fraction `num / den`: the nearest
   * integer, ties to the even neighbour.
   */
  function RoundDiv(num: int, den: int): (r: int)
    requires den > 0
    ensures 2 * num - den <= 2 * den * r <= 2 * num + den
    ensures (2 * den * r == 2 * num - den || 2 * den * r == 2 * num + den) ==> r % 2 == 0
  {
    var q := num / den;
    var m := num % den;
    assert num == den * q + m;
    if 2 * m < den then q
    else if 2 * m > den then q + 1
    else if q % 2 == 0 then q
    else q + 1
  }

  /** Multiplying by a non-negative factor keeps an order. */
  lemma MulLe(c: int, a: int, b: int)
    requires c >= 0 && a <= b
    ensures c * a <= c * b
  {
  }

  /** A positive factor can be cancelled from a strict order. */
  lemma MulLtCancel(c: int, a: int, b: int)
    requires c > 0
    ensures c * a < c * b ==> a < b
  {
    if a >= b {
      MulLe(c, b, a);
    }
  }

  /** Rounding a fraction never leaves an interval with integer end points. */
  lemma RoundDivWithin(num: int, den: int, lo: int, hi: int)
    requires den > 0 && lo * den <= num <= hi * den
    ensures lo <= RoundDiv(num, den) <= hi
  {
    var r := RoundDiv(num, den);
    assert 2 * den * (lo - 1) == 2 * (lo * den) - 2 * den;
    MulLtCancel(2 * den, lo - 1, r);
    assert 2 * den * (hi + 1) == 2 * (hi * den) + 2 * den;
    MulLtCancel(2 * den, r, hi + 1);
  }

  // ------------------------------------------------------------------------
  // General indicators

  /**
   * The table values of the answered slots, in order, the unanswered ones
   * skipped (app.py:133).
   */
  function GenValues(gen: seq<Option<GenAnswer>>): (vals: seq<int>)
    ensures |vals| <= |gen|
    ensures |vals| == |gen| <==> forall k :: 0 <= k < |gen| ==> gen[k].Some?
    ensures forall k :: 0 <= k < |vals| ==> vals[k] == 0 || vals[k] == 25 || vals[k] == 100
  {
    if gen == [] then []
    else
      var rest := GenValues(gen[1..]);
      assert forall k :: 0 <= k < |gen[1..]| ==> gen[1..][k] == gen[k + 1];
      match gen[0]
      case None => rest
      case Some(a) => [ValGen(a)] + rest
  }

  /** The smallest element of a non-empty sequence (`min`). */
  function Min(xs: seq<int>): (m: int)
    requires xs != []
    ensures m in xs
    ensures forall k :: 0 <= k < |xs| ==> m <= xs[k]
  {
    if |xs| == 1 then xs[0]
    else
      var m' := Min(xs[1..]);
      assert forall k :: 1 <= k < |xs| ==> xs[k] == xs[1..][k - 1];
      if xs[0] <= m' then xs[0] else m'
  }

  /**
   * One value per answered slot: the list is as long as the number of slots
   * that are not `None`, and it holds the table value of every answered slot.
   */
  lemma {:induction false} GenValuesAnswered(gen: seq<Option<GenAnswer>>)
    ensures |GenValues(gen)| == |gen| - multiset(gen)[None]
    ensures forall k :: 0 <= k < |gen| && gen[k].Some? ==> ValGen(gen[k].value) in GenValues(gen)
  {
    if gen != [] {
      GenValuesAnswered(gen[1..]);
      assert gen == [gen[0]] + gen[1..];
      assert forall k :: 1 <= k < |gen| ==> gen[k] == gen[1..][k - 1];
    }
  }

  // ------------------------------------------------------------------------
  // Specific indicators

  /** How many of the answers in `s` are `a` (the sum of app.py:142). */
  function Count(s: seq<SpecAnswer>, a: SpecAnswer): (n: nat)
    ensures n <= |s|
    ensures n == 0 <==> a !in s
  {
    if s == [] then 0
    else (if s[0] == a then 1 else 0) + Count(s[1..], a)
  }

  /** The specific answers other than "No aplica", in order (app.py:138). */
  function Applicable(spec: seq<SpecAnswer>): (apl: seq<SpecAnswer>)
    ensures NotApplicable !in apl
    ensures Count(apl, SpecYes) == Count(spec, SpecYes)
    ensures Count(apl, SpecNo) == Count(spec, SpecNo)
  {
    if spec == [] then []
    else
      var rest := Applicable(spec[1..]);
      if spec[0] == NotApplicable then rest
      else
        assert ([spec[0]] + rest)[1..] == rest;
        [spec[0]] + rest
  }

  /**
   * The specific score, a whole percentage: 100 when nothing applicable was
   * answered, otherwise the rounded share of "Sí" among the applicable answers.
   */
  function SpecificScore(spec: seq<SpecAnswer>): (e: int)
    ensures 0 <= e <= 100
  {
    var apl := Applicable(spec);
    if |apl| == 0 then 100
    else
      RoundDivWithin(100 * Count(apl, SpecYes), |apl|, 0, 100);
      RoundDiv(100 * Count(apl, SpecYes), |apl|)
  }

  /** `Count` is the number of occurrences: the multiplicity of `a` in `s`. */
  lemma {:induction false} CountOccurrences(s: seq<SpecAnswer>, a: SpecAnswer)
    ensures Count(s, a) == multiset(s)[a]
  {
    if s != [] {
      CountOccurrences(s[1..], a);
      assert s == [s[0]] + s[1..];
    }
  }

  /** Every answer is "Sí", "No" or "No aplica". */
  lemma {:induction false} CountKinds(s: seq<SpecAnswer>)
    ensures |s| == Count(s, SpecYes) + Count(s, SpecNo) + Count(s, NotApplicable)
  {
    if s != [] {
      CountKinds(s[1..]);
    }
  }

  /**
   * The specific score is 100 when every applicable answer is "Sí" (in
   * particular when there are none), and 0 when there are applicable answers
   * and none of them is "Sí".
   */
  lemma {:induction false} SpecificScoreExtremes(spec: seq<SpecAnswer>)
    ensures SpecNo !in spec ==> SpecificScore(spec) == 100
    ensures (SpecYes !in spec && SpecNo in spec) ==> SpecificScore(spec) == 0
  {
    var apl := Applicable(spec);
    CountKinds(apl);
    if |apl| > 0 {
      if SpecNo !in spec {
        RoundDivWithin(100 * |apl|, |apl|, 100, 100);
      }
      if SpecYes !in spec {
        RoundDivWithin(0, |apl|, 0, 0);
      }
    }
  }

  /**
   * The specific score is the share of "Sí" among the "Sí" and "No" answers,
   * as a rounded whole percentage, and 100 when there are none.
   */
  lemma SpecificScoreShare(spec: seq<SpecAnswer>)
    ensures var yes, no := multiset(spec)[SpecYes], multiset(spec)[SpecNo];
      SpecificScore(spec) == if yes + no == 0 then 100 else RoundDiv(100 * yes, yes + no)
  {
    var apl := Applicable(spec);
    CountKinds(apl);
    CountOccurrences(spec, SpecYes);
    CountOccurrences(spec, SpecNo);
  }

  // ------------------------------------------------------------------------
  // The item score

  /**
   * Three quarters of the general score `gen` plus a quarter of the specific
   * score `esp`, both whole percentages, rounded to tenths (app.py:145).
   */
  function Blend(gen: int, esp: int): (t: int)
    requires 0 <= gen <= 100 && 0 <= esp <= 100
    ensures 0 <= t <= 1000
  {
    RoundDivWithin(30 * gen + 10 * esp, 4, 0, 1000);
    RoundDiv(30 * gen + 10 * esp, 4)
  }

  /**
   * `_puntaje_item`: `None` for scenarios 2 and 3, 0 for scenarios 4 and 5;
   * for scenario 1, `None` unless all three general answers are present, else
   * the blend of the weakest general answer with the specific score.
   */
  function ScoreItem(r: ItemR): (s: Option<int>)
    ensures s.Some? ==> 0 <= s.value <= 1000
  {
    if r.scenario == 2 || r.scenario == 3 then None
    else if r.scenario == 4 || r.scenario == 5 then Some(0)
    else
      var g := GenValues(GenList(r.gen));
      if |g| < 3 then None
      else Some(Blend(Min(g), SpecificScore(r.spec)))
  }

  /** The three general answers are all present. */
  predicate Answered(g: General)
  {
    g.0.Some? && g.1.Some? && g.2.Some?
  }

  /**
   * What the scenario alone decides: scenarios 2 and 3 are excluded,
   * scenarios 4 and 5 are full non-compliance, and a scenario-1 record is
   * scored exactly when its three general answers are all present.
   */
  lemma ScenarioMapping(r: ItemR)
    ensures (r.scenario == 2 || r.scenario == 3) ==> ScoreItem(r) == None
    ensures (r.scenario == 4 || r.scenario == 5) ==> ScoreItem(r) == Some(0)
    ensures r.scenario == 1 ==> (ScoreItem(r).Some? <==> Answered(r.gen))
  {
    var gl := GenList(r.gen);
    assert gl[0] == r.gen.0 && gl[1] == r.gen.1 && gl[2] == r.gen.2;
  }

  /** How the blend depends on its general part. */
  lemma BlendBounds(gen: int, esp: int)
    requires 0 <= gen <= 100 && 0 <= esp <= 100
    ensures gen == 0 ==> Blend(gen, esp) <= 250
    ensures gen <= 25 ==> Blend(gen, esp) <= 438
    ensures Blend(gen, esp) == 1000 <==> gen == 100 && esp == 100
  {
    var n := 30 * gen + 10 * esp;
    if gen == 0 { RoundDivWithin(n, 4, 0, 250); }
    if gen <= 25 { RoundDivWithin(n, 4, 0, 438); }
    if gen < 100 || esp < 100 { RoundDivWithin(n, 4, 0, 998); }
  }

  /** An answered triple maps to its three values, in order. */
  lemma AnsweredValues(g: General)
    requires Answered(g)
    ensures GenValues(GenList(g)) == [ValGen(g.0.value), ValGen(g.1.value), ValGen(g.2.value)]
  {
    var gl := GenList(g);
    assert gl[1..] == [g.1, g.2] && gl[1..][1..] == [g.2];
    assert GenValues([g.2]) == [ValGen(g.2.value)];
    assert GenValues(gl[1..]) == [ValGen(g.1.value), ValGen(g.2.value)];
  }

  /** The minimum of three values. */
  lemma Min3(x: int, y: int, z: int)
    ensures var m := Min([x, y, z]);
      m <= x && m <= y && m <= z && (m == x || m == y || m == z)
  {
    var xs := [x, y, z];
    assert xs[0] == x && xs[1] == y && xs[2] == z;
  }

  /** Some slot of the general triple holds the answer `a`. */
  predicate HasAnswer(g: General, a: GenAnswer)
  {
    g.0 == Some(a) || g.1 == Some(a) || g.2 == Some(a)
  }

  /** The general score of an answered triple: the smallest of its three values. */
  function GeneralScore(g: General): (m: int)
    requires Answered(g)
    ensures 0 <= m <= 100
    ensures HasAnswer(g, No) ==> m == 0
    ensures HasAnswer(g, CannotDetermine) ==> m <= 25
    ensures m == 100 <==> g == (Some(Yes), Some(Yes), Some(Yes))
  {
    var a, b, c := g.0.value, g.1.value, g.2.value;
    Min3(ValGen(a), ValGen(b), ValGen(c));
    Min([ValGen(a), ValGen(b), ValGen(c)])
  }

  /**
   * A scenario-1 record with three general answers is scored by blending its
   * general score with its specific score.
   */
  lemma AnsweredScore(r: ItemR)
    requires r.scenario == 1 && Answered(r.gen)
    ensures ScoreItem(r) == Some(Blend(GeneralScore(r.gen), SpecificScore(r.spec)))
  {
    var g := GenValues(GenList(r.gen));
    AnsweredValues(r.gen);
    assert g == [ValGen(r.gen.0.value), ValGen(r.gen.1.value), ValGen(r.gen.2.value)];
    assert Min(g) == GeneralScore(r.gen);
  }

  /**
   * The weakest general answer dominates: one "No" caps the item at 25 %,
   * one "No es posible determinarlo" caps it at 43.8 %, and the item reaches
   * 100 % only when all three answers are "Sí" and the specific score is 100.
   */
  lemma WeakestGeneralDominates(r: ItemR)
    requires r.scenario == 1 && Answered(r.gen)
    ensures HasAnswer(r.gen, No) ==> ScoreItem(r).value <= 250
    ensures HasAnswer(r.gen, CannotDetermine) ==> ScoreItem(r).value <= 438
    ensures ScoreItem(r) == Some(1000) <==>
              (r.gen == (Some(Yes), Some(Yes), Some(Yes)) && SpecificScore(r.spec) == 100)
  {
    AnsweredScore(r);
    BlendBounds(GeneralScore(r.gen), SpecificScore(r.spec));
  }

  /** Fully compliant general answers and no specific indicators score 100.0. */
  lemma ExampleFull()
    ensures ScoreItem(ItemR(1, (Some(Yes), Some(Yes), Some(Yes)), [])) == Some(1000)
  {
    AnsweredScore(ItemR(1, (Some(Yes), Some(Yes), Some(Yes)), []));
    assert Blend(100, 100) == RoundDiv(4000, 4) == 1000;
  }

  /** An undeterminable completeness and no specific indicators score 43.8. */
  lemma ExampleUndetermined()
    ensures ScoreItem(ItemR(1, (Some(Yes), Some(Yes), Some(CannotDetermine)), [])) == Some(438)
  {
    var g := (Some(Yes), Some(Yes), Some(CannotDetermine));
    AnsweredScore(ItemR(1, g, []));
    Min3(100, 100, 25);
    assert GeneralScore(g) == 25;
    assert Blend(25, 100) == RoundDiv(1750, 4) == 438;
  }

  /** The applicable answers and their "Sí" count in a concrete specific list. */
  lemma ConcreteApplicable()
    ensures Applicable([SpecYes, SpecNo, NotApplicable]) == [SpecYes, SpecNo]
    ensures Count([SpecYes, SpecNo], SpecYes) == 1
  {
    var spec := [SpecYes, SpecNo, NotApplicable];
    assert spec[1..] == [SpecNo, NotApplicable] && spec[1..][1..] == [NotApplicable];
    assert Applicable(spec[1..]) == [SpecNo];
    assert [SpecYes, SpecNo][1..] == [SpecNo];
  }

  /** One "Sí" and one "No" among the specific answers give a specific score of 50. */
  lemma HalfSpecific()
    ensures SpecificScore([SpecYes, SpecNo, NotApplicable]) == 50
  {
    ConcreteApplicable();
    assert RoundDiv(100, 2) == 50;
  }

  /** With three "Sí" general answers the item score is decided by the specific answers alone. */
  lemma AllYesScore(spec: seq<SpecAnswer>)
    ensures ScoreItem(ItemR(1, (Some(Yes), Some(Yes), Some(Yes)), spec)) == Some(Blend(100, SpecificScore(spec)))
  {
    AnsweredScore(ItemR(1, (Some(Yes), Some(Yes), Some(Yes)), spec));
  }

  /** One "Sí" and one "No" among the specific answers score 87.5. */
  lemma ExampleHalfSpecific()
    ensures ScoreItem(ItemR(1, (Some(Yes), Some(Yes), Some(Yes)), [SpecYes, SpecNo, NotApplicable])) == Some(875)
  {
    AllYesScore([SpecYes, SpecNo, NotApplicable]);
    HalfSpecific();
    assert Blend(100, 50) == RoundDiv(3500, 4) == 875;
  }
}

=== FILE: seqs.dfy ===
/** Sequence helpers shared by the catalog and the form. */
module Seqs {
  /** The position of the first occurrence of `x` in `xs` (`list.index`). */
  function IndexOf<T(==)>(xs: seq<T>, x: T): (i: nat)
    requires x in xs
    ensures i < |xs| && xs[i] == x
    ensures forall j :: 0 <= j < i ==> xs[j] != x
  {
    if xs[0] == x then 0 else 1 + IndexOf(xs[1..], x)
  }
}

=== FILE: wrappers.dfy ===
/** Optional values and results with an error case, used across the model. */
module Wrappers {

  /** A value that may be absent (Python's `None`). */
  datatype Option<+T> = None | Some(value: T)

  /** The outcome of a computation that can raise an error. */
  datatype Result<+T, +E> = Success(value: T) | Failure(error: E)
}
